=== FILE: README.md ===
# BitCrack KeyFinder: host-side search control

This project models the part of BitCrack that runs on the host: `KeyFinder` and
`DeviceManager::getDevices`. `KeyFinder` keeps the set of target address hashes
(hash160), loads it from a list or a file, and hands it to the search device. It
drives the device in a `while (_running)` loop. Each iteration steps the device,
counts the iteration, reports status when due, reports every match, and removes the
matched hashes from the target set. It then decides whether to stop. A run stops
when no target is left, when the key cursor leaves the range `[startKey, endKey)`
(unless random restriding is configured), or when `stop()` is called. `getDevices`
turns the CUDA driver's device list into the program's device descriptors.

The device is an oracle. For each iteration it supplies an `Observation`:
- the cursor after the step;
- whether the status timer has expired;
- the batch of matches;
- the stride a random draw would give;
- whether `stop()` was called during the iteration.

The loop body is the pure function `KeyFinder.Step`. The loop is `KeyFinder.Loop`,
which recurses over the supplied observations. Callbacks become `Event`s in an
event log. The `uint64_t` counters `_iterCount` and `_total` wrap modulo 2^64, as
in the source (module `UInt64`). `LZC` and `TZC` are loops over `bv64`.

Modules:
- `Outcomes`: `Option` and `Result`.
- `UInt64`: wrapping 64-bit add, subtract and multiply, and their link to `%`.
- `Addresses`: hashes, the abstract address codec and line cleaner, and what a load
  produces from a list of addresses.
- `BitScan`: `LZC` and `TZC`.
- `KeyFinder`: the state, the loaders, the loop stages, `Step`, `Loop` and `Run`.
- `SearchProperties`: properties of whole runs.
- `DeviceManager`: `getDevices`.

Behaviour of the code worth noting:
- A load that fails on an invalid address has already cleared the host's set and
  holds the hashes of the addresses before it. The device is not handed that set.
  An empty list and a file that cannot be opened fail before anything changes.
- The run loop removes found hashes from the host's set only. The host never hands
  the device a reduced set during a run, so the last set handed over covers the
  host's set but need not equal it.
- An iteration that finds the last target and leaves the range with restriding
  configured still restrides, and `_rStrideCount` grows, before the run stops. The
  range test is not in an `else` of the no-targets test.
- A file whose lines are all blank loads successfully with an empty target set. An
  empty list, by contrast, is an error.
- The host does not filter matches it has already reported. A hash the device
  reports twice is reported twice.
- `run()` restarts its local `prevIterCount` at zero but keeps `_iterCount`. So the
  first report of a second `run()` adds to `_total` the keys of every earlier
  iteration again.

## Model

| member | source | states |
|---|---|---|
| KeyFinder.Create | BitCrack/KeyFinder/KeyFinder.cpp:21-50 | All counters start at zero and no target is loaded. The stride is the random draw when random strides are enabled, and the caller's stride otherwise. |
| KeyFinder.Init | BitCrack/KeyFinder/KeyFinder.cpp:145-150 | The device is put on the finder's stride, and nothing else changes. |
| KeyFinder.SetTargetsOnDevice | BitCrack/KeyFinder/KeyFinder.cpp:133-143 | The device holds exactly the host's target set, and nothing else changes. |
| KeyFinder.SetTargetsFromList | BitCrack/KeyFinder/KeyFinder.cpp:56-79 | An empty list fails with "requires at least 1 target" and changes nothing. A load succeeds exactly when every address verifies. On success the set is the set of decoded hashes and the device gets that set. On failure the error names the first bad address, the host holds the hashes of the addresses before it, and the device is untouched. |
| KeyFinder.SetTargetsFromFile | BitCrack/KeyFinder/KeyFinder.cpp:81-115 | A file that cannot be opened fails and changes nothing. Lines that are blank after cleaning are skipped. The load succeeds exactly when every remaining line verifies. On success the device gets the decoded set. On failure the error names the first bad line and the device is untouched. |
| KeyFinder.Contains | BitCrack/KeyFinder/KeyFinder.cpp:165-169 | `isTargetInList`: the hash is in the host's target set. `RemoveTarget`'s contract is stated through it. |
| KeyFinder.RemoveTarget | BitCrack/KeyFinder/KeyFinder.cpp:158-169 | Afterwards the hash is not in the list and every other hash is in it exactly when it was before. Removing an absent hash changes nothing. |
| KeyFinder.Stop | BitCrack/KeyFinder/KeyFinder.cpp:153-156 | `_running` becomes false, and nothing else changes. |
| KeyFinder.BatchHashesMembers | BitCrack/KeyFinder/KeyFinder.cpp:246-249 | The hashes a batch removes are exactly the hashes its matches carry. |
| KeyFinder.ReportsInOrder | BitCrack/KeyFinder/KeyFinder.cpp:235-244 | One result callback per match, in the device's order. Each carries the match's key and the address derived from its public key. |
| KeyFinder.RemovalsInOrder | BitCrack/KeyFinder/KeyFinder.cpp:247-249 | One removal per match, in the device's order. |
| KeyFinder.RemoveBatch | BitCrack/KeyFinder/KeyFinder.cpp:247-249 | The target set loses exactly the batch's hashes, and nothing else changes. |
| KeyFinder.ToSearchResult | BitCrack/KeyFinder/KeyFinder.cpp:237-241 | The callback's record carries the match's private key, public key and compression flag. Its address is the one derived from that public key and flag. |
| KeyFinder.DrainResults | BitCrack/KeyFinder/KeyFinder.cpp:231-250 | Nothing but the target set changes, and there are 2 × (batch size) events. `DrainEvents` says which events they are, and `DrainSplitsTargets` and `DrainIsRemovalLoop` say how the targets change. |
| KeyFinder.DrainSplitsTargets | BitCrack/KeyFinder/KeyFinder.cpp:246-249 | After result processing, the old targets split into those kept and those matched, and no matched hash is kept. |
| KeyFinder.DrainEvents | BitCrack/KeyFinder/KeyFinder.cpp:231-250 | Result processing makes the callback of every match, in the device's order, and only then removes every match's hash, in the same order. |
| KeyFinder.DrainIsRemovalLoop | BitCrack/KeyFinder/KeyFinder.cpp:246-249 | The state after result processing is the one the source's loop of `removeTargetFromList` calls leaves. |
| KeyFinder.EmitStatus | BitCrack/KeyFinder/KeyFinder.cpp:192-229 | `prevIterCount` catches up with `_iterCount`. The snapshot carries the new total, the target count, the cursor, the stride and the restride count. Without 64-bit overflow, the total grows by exactly (iterations since the last report) × keysPerStep. |
| KeyFinder.Exhausted | BitCrack/KeyFinder/KeyFinder.cpp:260 | The cursor has reached the end key or fallen below the start key. `StopsAfter`, `CheckStop` and `Step` state the stop rules through it. |
| KeyFinder.Restride | BitCrack/KeyFinder/KeyFinder.cpp:309-315 | The drawn stride replaces the stride on both host and device. `_rStrideCount` grows by exactly one, and nothing else changes. |
| KeyFinder.ReportIfDue | BitCrack/KeyFinder/KeyFinder.cpp:194-229 | When the timer has expired, there is exactly one status callback. It carries the new total, and `prevIterCount` catches up with `_iterCount`. Otherwise there is no callback and the state is unchanged. `_iterCount`, the targets and the stride never change here. Without 64-bit overflow, the total grows by exactly (iterations since the last report) × keysPerStep. |
| KeyFinder.CheckStop | BitCrack/KeyFinder/KeyFinder.cpp:252-272 | `_running` stays up exactly when it was up and no stop rule holds: targets left, cursor in range or restriding configured, and no `stop()`. Leaving the range with restriding configured restrides. Otherwise the stride is unchanged. |
| KeyFinder.Step | BitCrack/KeyFinder/KeyFinder.cpp:186-273 | One iteration: `_iterCount` grows by one, wrapping at 2^64. The batch's hashes leave the target set, and the device is handed no new set. The running flag and the stride follow the stop and restride rules. Without a due report the total is unchanged. |
| KeyFinder.StepRemovesMatches | BitCrack/KeyFinder/KeyFinder.cpp:246-249 | After an iteration, no hash the device matched in it is still a target. |
| KeyFinder.Loop | BitCrack/KeyFinder/KeyFinder.cpp:186-273 | The loop runs no iteration when the flag is down at the guard. A run that ends before the supplied iterations run out ends with the flag down. |
| KeyFinder.Run | BitCrack/KeyFinder/KeyFinder.cpp:172-186 | `run()` raises the flag itself, so at least one iteration runs even after an earlier `stop()`. |
| UInt64.Add | BitCrack/KeyFinder/KeyFinder.cpp:200 | `_total += count` on `uint64_t`: the sum modulo 2^64. That is the exact sum below 2^64 and the sum less 2^64 above it. |
| UInt64.Sub | BitCrack/KeyFinder/KeyFinder.cpp:198 | `_iterCount - prevIterCount` on `uint64_t`: the difference modulo 2^64. That is the exact difference when it is not negative, and otherwise the difference plus 2^64. |
| UInt64.Inc | BitCrack/KeyFinder/KeyFinder.cpp:189 | `_iterCount++` adds one and wraps from 2^64 - 1 to 0. |
| UInt64.Mul | BitCrack/KeyFinder/KeyFinder.cpp:198 | `(...) * pointsPerIteration` is the exact product when the product fits in 64 bits. |
| UInt64.MulIsModular | BitCrack/KeyFinder/KeyFinder.cpp:198 | The 64-bit product is the exact product modulo 2^64. |
| UInt64.MulIsProductModular | BitCrack/KeyFinder/KeyFinder.cpp:198 | Wrapping repeated addition is repeated addition modulo 2^64. |
| UInt64.ProductIsMultiplication | BitCrack/KeyFinder/KeyFinder.cpp:198 | The repeated-addition product is multiplication. |
| Addresses.FirstInvalid | BitCrack/KeyFinder/KeyFinder.cpp:65-69 | The position of the address the list load throws on: every address before it verifies and the one at it does not. It is the list length when all verify. |
| Addresses.AllValidIffNoFirstInvalid | BitCrack/KeyFinder/KeyFinder.cpp:65-69 | The load finds no bad address exactly when all addresses verify. |
| Addresses.HashesOfSnoc | BitCrack/KeyFinder/KeyFinder.cpp:73-75 | Inserting one more decoded address adds exactly its hash to the set. |
| Addresses.HashesOfAtMostDistinct | BitCrack/KeyFinder/KeyFinder.cpp:62-76 | Duplicates collapse: the set has at most as many hashes as the list has distinct addresses. |
| Addresses.HashesOfInjective | BitCrack/KeyFinder/KeyFinder.cpp:62-76 | If distinct addresses decode to distinct hashes, the set has exactly one hash per distinct address. |
| Addresses.Candidates | BitCrack/KeyFinder/KeyFinder.cpp:94-98 | The lines the file load looks at after cleaning: never more than the file's lines, and none empty. |
| Addresses.CandidatesAppend | BitCrack/KeyFinder/KeyFinder.cpp:94-98 | The lines of a file read in two parts are the lines of each part, in order. |
| Addresses.BlankLineIgnored | BitCrack/KeyFinder/KeyFinder.cpp:95-98 | A line that is empty after newline removal and trimming contributes nothing, wherever it stands. |
| Addresses.FirstInvalidCandidate | BitCrack/KeyFinder/KeyFinder.cpp:98-102 | The first non-blank line that fails verification is the first bad candidate of the whole file, so the file does not load. |
| Addresses.ValidCandidateStep | BitCrack/KeyFinder/KeyFinder.cpp:94-109 | Reading one more line that is blank or valid keeps the load valid. It adds exactly that line's hash, or nothing for a blank line. |
| BitScan.LZC | BitCrack/KeyFinder/KeyFinder.cpp:281-293 | LZC(0) = 64. For x ≠ 0 the result c is below 64, bit 63 - c is set, and every higher bit is clear. |
| BitScan.TZC | BitCrack/KeyFinder/KeyFinder.cpp:295-307 | TZC(0) = 64. For x ≠ 0 the result c is below 64, bit c is set, and every lower bit is clear. |
| BitScan.LeadingZeroCountUnique | BitCrack/KeyFinder/KeyFinder.cpp:281-293 | The leading-zero count is uniquely determined, so LZC's contract fixes its result. |
| BitScan.LeadingZeroCountBound | BitCrack/KeyFinder/KeyFinder.cpp:286-290 | A count whose higher bits are all clear never passes a set bit. |
| BitScan.TrailingZeroCountUnique | BitCrack/KeyFinder/KeyFinder.cpp:295-307 | The trailing-zero count is uniquely determined, so TZC's contract fixes its result. |
| BitScan.CountsLeaveSetBit | BitCrack/KeyFinder/KeyFinder.cpp:281-307 | For x ≠ 0, LZC(x) + TZC(x) ≤ 63: the highest set bit is not below the lowest. |
| BitScan.SingleBitCounts | BitCrack/KeyFinder/KeyFinder.cpp:281-307 | For the word with only bit k set, LZC is 63 - k and TZC is k. |
| SearchProperties.ReportsCarryBatch | BitCrack/KeyFinder/KeyFinder.cpp:235-244 | The result callbacks of a batch carry its matches, one each, in order, and no status. |
| SearchProperties.RemovalsAreSilent | BitCrack/KeyFinder/KeyFinder.cpp:247-249 | Removals make no callback. |
| SearchProperties.DrainOrder | BitCrack/KeyFinder/KeyFinder.cpp:233-250 | No removal precedes a result callback within a batch. |
| SearchProperties.DrainSilent | BitCrack/KeyFinder/KeyFinder.cpp:231-250 | Result processing makes no status report. |
| SearchProperties.StepSnapshots | BitCrack/KeyFinder/KeyFinder.cpp:194-229 | An iteration makes one status report exactly when the timer has expired. The report carries the total the iteration leaves. |
| SearchProperties.StepEvents | BitCrack/KeyFinder/KeyFinder.cpp:188-250 | Per iteration: the result callbacks carry the batch in the device's order, every callback precedes every removal, and at most one status report is made. |
| SearchProperties.LoopTargets | BitCrack/KeyFinder/KeyFinder.cpp:186-257 | After a run, the targets are the initial ones less every hash matched in the iterations that ran. |
| SearchProperties.LoopNoEarlierStop | BitCrack/KeyFinder/KeyFinder.cpp:252-272 | No iteration before the last one of a run satisfies a stop rule. |
| SearchProperties.LoopStopReason | BitCrack/KeyFinder/KeyFinder.cpp:252-272 | A run that stopped did so because its last iteration satisfied a stop rule. |
| SearchProperties.LoopStopsAtFirstStopRule | BitCrack/KeyFinder/KeyFinder.cpp:186-272 | A run goes on exactly until the first iteration after which a stop rule holds. |
| SearchProperties.StopsWhenTargetsRunOut | BitCrack/KeyFinder/KeyFinder.cpp:252-257 | A run does not outlast the iteration whose matches exhaust the target set. |
| SearchProperties.StopsAtEndOfRange | BitCrack/KeyFinder/KeyFinder.cpp:259-271 | Without restriding, a run does not outlast the iteration whose cursor leaves the range. |
| SearchProperties.StopsOnRequest | BitCrack/KeyFinder/KeyFinder.cpp:153-156 | A `stop()` during an iteration ends the run at the next guard. |
| SearchProperties.ContinuesPastEndOfRange | BitCrack/KeyFinder/KeyFinder.cpp:259-267 | With restriding configured, leaving the range never ends a run. While targets remain and no stop comes, every supplied iteration runs. |
| SearchProperties.StopEndsLoop | BitCrack/KeyFinder/KeyFinder.cpp:186 | After `stop()` the guard admits no further iteration, and the loop changes nothing. |
| SearchProperties.LoopRestrides | BitCrack/KeyFinder/KeyFinder.cpp:259-267 | `_rStrideCount` grows by one for each iteration that left the range with restriding configured. Without restriding, the host and device strides never change. |
| SearchProperties.LoopResults | BitCrack/KeyFinder/KeyFinder.cpp:233-244 | Every match of the iterations that ran reaches the result callback once, in order. |
| SearchProperties.KeysFitIsBound | BitCrack/KeyFinder/KeyFinder.cpp:198-200 | Proof helper for the headroom lemmas. Counting steps into the total one at a time stays below 2^64 exactly when the total plus steps × keysPerStep does. |
| SearchProperties.StepUsesHeadroom | BitCrack/KeyFinder/KeyFinder.cpp:189-227 | An iteration that starts with room for n more iterations without 64-bit overflow leaves room for n - 1. |
| SearchProperties.StepTotal | BitCrack/KeyFinder/KeyFinder.cpp:194-200 | Within that room, an iteration never lowers `_total`. A report adds exactly the keys of the iterations since the last report, the current one included. |
| SearchProperties.ReportCounters | BitCrack/KeyFinder/KeyFinder.cpp:198-227 | Within the room, the status block adds exactly the unreported keys and leaves `_iterCount` alone. |
| SearchProperties.ProductAdd | BitCrack/KeyFinder/KeyFinder.cpp:198 | Proof helper for the headroom lemmas: repeated addition distributes over a sum. The keys of a + m steps are those of a steps plus those of m steps. |
| SearchProperties.LoopTotals | BitCrack/KeyFinder/KeyFinder.cpp:194-228 | Within the room, the totals of successive status reports never decrease. They lie between the total before the run and the total after it. |
| SearchProperties.LoopTotalGrows | BitCrack/KeyFinder/KeyFinder.cpp:194-228 | Within the room, a run never lowers `_total`. |
| SearchProperties.RunHeadroomIsBound | BitCrack/KeyFinder/KeyFinder.cpp:182-200 | `run()` restarts `prevIterCount` at zero. So the room it needs for n iterations is `_iterCount + n < 2^64` and `_total + (_iterCount + n) × keysPerStep < 2^64`. |
| SearchProperties.RunTotals | BitCrack/KeyFinder/KeyFinder.cpp:172-229 | `run()` with room for the supplied iterations reports non-decreasing totals. They lie between the total before the run and the total after it. |
| SearchProperties.RunTotalGrows | BitCrack/KeyFinder/KeyFinder.cpp:172-229 | `run()` with room for the supplied iterations never lowers `_total`. |
| SearchProperties.RunFirstReportCountsEarlierRuns | BitCrack/KeyFinder/KeyFinder.cpp:182-200 | Within the room, the first report of a `run()` adds (`_iterCount` + 1) × keysPerStep to `_total`, counting every iteration since construction, including those an earlier run already reported. |
| SearchProperties.CreatedFinderIsReady | BitCrack/KeyFinder/KeyFinder.cpp:21-50 | After construction, `init()` and a target load, the device has the host's stride and holds every host target, which is what the run lemmas assume. |
| SearchProperties.CreatedFinderHeadroom | BitCrack/KeyFinder/KeyFinder.cpp:21-50 | A freshly constructed finder has room for `n` iterations of `run()` without 64-bit overflow exactly when `n` and `n` × keysPerStep fit in 64 bits. |
| SearchProperties.LastTargetStillRestrides | BitCrack/KeyFinder/KeyFinder.cpp:252-271 | An iteration that removes the last target and leaves the range with restriding configured stops the run, yet restrides: the stride is the drawn one and `_rStrideCount` grows by one. |
| SearchProperties.LoopKeepsDeviceTargets | BitCrack/KeyFinder/KeyFinder.cpp:246-249 | The host never hands the device a reduced set during a run, so the last set handed over stands. Found hashes are removed from the host's set only. |
| SearchProperties.LoopShrinksTargets | BitCrack/KeyFinder/KeyFinder.cpp:246-249 | A run only ever takes targets away. |
| SearchProperties.LoopKeepsStride | BitCrack/KeyFinder/KeyFinder.cpp:259-267 | A run that starts with the device on the host's stride keeps it there, restrides included. |
| SearchProperties.LoopKeepsDeviceCovering | BitCrack/KeyFinder/KeyFinder.cpp:246-249 | After a run, the set last handed to the device still covers the host's, now smaller, set. |
| DeviceManager.GetDevices | BitCrack/KeyFinder/DeviceManager.cpp:6-35 | There is one descriptor per backend device, in order, with logical id i, type CUDA and the backend's id, name, memory and compute units. A `CudaException` becomes a `DeviceManagerException` with the same message and no list. |

## Left out

- Address codec: `Address::verifyAddress`, `Base58::toHash160` and `Address::fromPublicKey` are not part of this model. They are function-valued parameters (`AddressCodec`), and every property holds for any such functions.
- `util::removeNewline` and `util::trim` are not part of this model. They are parameters (`LineCleaner`).
- File I/O: the targets file is its sequence of lines, or `None` when it cannot be opened. The source's exceptions carry no message: for a bad line the model attaches the line, and for a file that cannot be opened (`KeySearchException()` at BitCrack/KeyFinder/KeyFinder.cpp:87) it attaches the path in `CannotOpen`.
- Random strides: `secp256k1::getRandom32` is an input (`drawnStride`, and the constructor's `draw`). The stride history it keeps to avoid repeats is not modelled, because the draw's code is not part of this model.
- Device internals: `doStep`, `keysPerStep`, `getNextKey`, `getResults`, `getMemoryInfo` and the device name are observations or configuration, not computations.
- Device hand-over failures: `_device->setTargets` (BitCrack/KeyFinder/KeyFinder.cpp:78, 114, 142) and `_device->init` (149) are assumed to succeed. If one throws, the load or `init()` fails even though every address verified, and the host keeps the whole new set. `SetTargetsFromList` and `SetTargetsFromFile` do not model this. Also, `getResults`' return value (233) is assumed to equal the size of the batch it fills, so result processing runs exactly when the batch is non-empty.
- Exceptions during an iteration: a device call (`doStep` at BitCrack/KeyFinder/KeyFinder.cpp:188, `getMemoryInfo` at 214, `getNextKey` at 220 and 260, `getResults` at 233, `updateStride` at 313) or a callback (224, 243) can throw and leave `run()` mid-iteration with partial state. For example, `_iterCount` and `_total` have grown but no status was reported, or results were reported but their hashes not removed. The model's trace ends only between iterations, so these states are not modelled.
- Timing and floating point: the timer becomes the `statusDue` flag. `speed`, `seconds`, `totalTime` and the memory fields of the status record are not modelled.
- Logging, `printf` and the MB-size message of the file load: output only.
- Callback registration (`setResultCallback`, `setStatusCallback`, `setStatusInterval`): callbacks are modelled as events in the run's event log, and the interval is folded into `statusDue`.
- Unset callbacks: the constructor leaves both callbacks `NULL` (BitCrack/KeyFinder/KeyFinder.cpp:34,36) and never installs the do-nothing defaults at lines 11-19, yet `run()` calls both unconditionally (lines 224 and 243). The model assumes both callbacks were registered before `run()`. A call through a null callback is not modelled.
- Concurrency: `stop()` from another thread is the `stopRequested` flag of the iteration it lands in. The flag is only ever lowered inside the loop, so where in the iteration it lands does not change the outcome.
- `_running` before the first `run()`: the constructor does not set it. The model starts it false.
- The `setTargetsOnDevice` copy into a `hash160` vector: that vector is never used, so only the hand-over of the set is modelled.
- SearchProperties.StepTotal: total monotonicity is proved only when the counters have room for the iterations without 64-bit overflow, because the source's `uint64_t` arithmetic wraps and the total then really decreases.
- SearchProperties.LoopTotals: proved only within the same 64-bit headroom, for the same reason.
- SearchProperties.RunTotals: proved only within the same 64-bit headroom, for the same reason.
- SearchProperties.LoopTotalGrows: proved only within the same 64-bit headroom, for the same reason.
- SearchProperties.RunTotalGrows: proved only within the same 64-bit headroom, for the same reason.
- KeyFinder.ReportIfDue: the exact growth of the total is stated only when it does not overflow, as for `EmitStatus`.
- SearchProperties.ReportCounters: requires the 64-bit headroom, so the exact growth of the total is stated only when it does not overflow.
- SearchProperties.RunFirstReportCountsEarlierRuns: requires the `run()` headroom, so the recount is stated only when the total does not overflow.
- KeyFinder.EmitStatus: the exact growth of the total is stated only when it does not overflow. The overflowing case is covered by `UInt64.Add` and `UInt64.MulIsModular`.
- DeviceManager: only the CUDA branch exists in the source, so `OpenCL` descriptors are never produced.

=== FILE: addresses.dfy ===
/**
 * Target hashes and the address helpers KeyFinder relies on. The address codec
 * (checksum verification, base58-to-hash160 decoding, public-key-to-address
 * encoding) and the text helpers (`removeNewline`, `trim`) are not part of this
 * model: they enter as function-valued parameters, and every statement below
 * holds for whatever functions are supplied.
 */
module Addresses {

  /** A 160-bit RIPEMD-160 hash as the five 32-bit words of `KeySearchTarget::value`. */
  type Hash = h: seq<bv32> | |h| == 5 witness [0, 0, 0, 0, 0]

  /** An elliptic-curve point, the public key a device reports with a match. */
  datatype PublicKey = PublicKey(x: nat, y: nat)

  /** The address primitives: `Address::verifyAddress`, `Base58::toHash160`, `Address::fromPublicKey`. */
  datatype AddressCodec = AddressCodec(
    verifyAddress: string -> bool,
    toHash160: string -> Hash,
    fromPublicKey: (PublicKey, bool) -> string)

  /** The line clean-up applied to each line of a targets file: `util::removeNewline`, then `util::trim`. */
  datatype LineCleaner = LineCleaner(removeNewline: string -> string, trim: string -> string)

  /** The set of hashes the given addresses decode to; duplicates collapse. */
  function HashesOf(codec: AddressCodec, addresses: seq<string>): set<Hash>
  {
    set a | a in addresses :: codec.toHash160(a)
  }

  /** Every address passes the checksum test. */
  predicate AllValid(codec: AddressCodec, addresses: seq<string>)
  {
    forall i | 0 <= i < |addresses| :: codec.verifyAddress(addresses[i])
  }

  /** The index of the first address that fails verification, or `|addresses|` when none does. */
  function FirstInvalid(codec: AddressCodec, addresses: seq<string>): (k: nat)
    ensures k <= |addresses|
    ensures AllValid(codec, addresses[..k])
    ensures k < |addresses| ==> !codec.verifyAddress(addresses[k])
  {
    if |addresses| == 0 then 0
    else if !codec.verifyAddress(addresses[0]) then 0
    else
      var k := 1 + FirstInvalid(codec, addresses[1..]);
      assert addresses[..k] == [addresses[0]] + addresses[1..][..k - 1];
      k
  }

  /** A position whose address fails after a valid prefix is exactly `FirstInvalid`. */
  lemma FirstInvalidAt(codec: AddressCodec, addresses: seq<string>, k: nat)
    requires k < |addresses|
    requires AllValid(codec, addresses[..k])
    requires !codec.verifyAddress(addresses[k])
    ensures FirstInvalid(codec, addresses) == k
  {
  }

  /** Everything is valid exactly when no first invalid address exists. */
  lemma AllValidIffNoFirstInvalid(codec: AddressCodec, addresses: seq<string>)
    ensures AllValid(codec, addresses) <==> FirstInvalid(codec, addresses) == |addresses|
  {
    var k := FirstInvalid(codec, addresses);
    if k == |addresses| {
      assert addresses[..k] == addresses;
    }
  }

  /** Appending one address adds exactly its hash. */
  lemma HashesOfSnoc(codec: AddressCodec, addresses: seq<string>, a: string)
    ensures HashesOf(codec, addresses + [a]) == HashesOf(codec, addresses) + {codec.toHash160(a)}
  {
    var lhs := HashesOf(codec, addresses + [a]);
    var rhs := HashesOf(codec, addresses) + {codec.toHash160(a)};
    forall h | h in lhs ensures h in rhs {
      var b :| b in addresses + [a] && codec.toHash160(b) == h;
      if b != a {
        assert b in addresses;
      }
    }
    forall h | h in rhs ensures h in lhs {
      if h != codec.toHash160(a) {
        var b :| b in addresses && codec.toHash160(b) == h;
        assert b in addresses + [a];
      } else {
        assert a in addresses + [a];
      }
    }
  }

  /** The distinct addresses of a list. */
  function Distinct(addresses: seq<string>): set<string>
  {
    set a | a in addresses
  }

  /** No two different addresses of the list decode to the same hash. */
  predicate DecodesInjectively(codec: AddressCodec, addresses: seq<string>)
  {
    forall a, b | a in addresses && b in addresses && a != b :: codec.toHash160(a) != codec.toHash160(b)
  }

  /** Loading collapses duplicates: the target set never holds more hashes than there are distinct addresses. */
  lemma {:induction false} HashesOfAtMostDistinct(codec: AddressCodec, addresses: seq<string>)
    ensures |HashesOf(codec, addresses)| <= |Distinct(addresses)|
  {
    if |addresses| > 0 {
      var init := addresses[..|addresses| - 1];
      var a := addresses[|addresses| - 1];
      assert addresses == init + [a];
      HashesOfAtMostDistinct(codec, init);
      HashesOfSnoc(codec, init, a);
      assert Distinct(addresses) == Distinct(init) + {a};
      if a in Distinct(init) {
        assert codec.toHash160(a) in HashesOf(codec, init);
        assert HashesOf(codec, addresses) == HashesOf(codec, init);
        assert Distinct(addresses) == Distinct(init);
      }
    }
  }

  /** When decoding keeps different addresses apart, the target set has one hash per distinct address. */
  lemma {:induction false} HashesOfInjective(codec: AddressCodec, addresses: seq<string>)
    requires DecodesInjectively(codec, addresses)
    ensures |HashesOf(codec, addresses)| == |Distinct(addresses)|
  {
    if |addresses| > 0 {
      var init := addresses[..|addresses| - 1];
      var a := addresses[|addresses| - 1];
      assert addresses == init + [a];
      assert DecodesInjectively(codec, init);
      HashesOfInjective(codec, init);
      HashesOfSnoc(codec, init, a);
      assert Distinct(addresses) == Distinct(init) + {a};
      if a in Distinct(init) {
        assert codec.toHash160(a) in HashesOf(codec, init);
        assert HashesOf(codec, addresses) == HashesOf(codec, init);
        assert Distinct(addresses) == Distinct(init);
      } else {
        assert codec.toHash160(a) !in HashesOf(codec, init);
      }
    }
  }

  /** A line after `removeNewline` and `trim`. */
  function Clean(cleaner: LineCleaner, line: string): string
  {
    cleaner.trim(cleaner.removeNewline(line))
  }

  /** The address candidates of a targets file: each cleaned line that is not empty, in file order. */
  function Candidates(cleaner: LineCleaner, lines: seq<string>): (r: seq<string>)
    ensures |r| <= |lines|
    ensures forall i | 0 <= i < |r| :: |r[i]| > 0
  {
    if |lines| == 0 then []
    else
      var line := Clean(cleaner, lines[|lines| - 1]);
      Candidates(cleaner, lines[..|lines| - 1]) + (if |line| > 0 then [line] else [])
  }

  /** Splitting a file anywhere splits its candidates at the same place. */
  lemma {:induction false} CandidatesAppend(cleaner: LineCleaner, a: seq<string>, b: seq<string>)
    ensures Candidates(cleaner, a + b) == Candidates(cleaner, a) + Candidates(cleaner, b)
    decreases |b|
  {
    if |b| == 0 {
      assert a + b == a;
    } else {
      var b' := b[..|b| - 1];
      assert (a + b)[..|a + b| - 1] == a + b';
      assert (a + b)[|a + b| - 1] == b[|b| - 1];
      CandidatesAppend(cleaner, a, b');
    }
  }

  /** A line that is empty after clean-up contributes no candidate wherever it appears. */
  lemma BlankLineIgnored(cleaner: LineCleaner, before: seq<string>, line: string, after: seq<string>)
    requires |Clean(cleaner, line)| == 0
    ensures Candidates(cleaner, before + [line] + after) == Candidates(cleaner, before + after)
  {
    CandidatesAppend(cleaner, before + [line], after);
    CandidatesAppend(cleaner, before, [line]);
    CandidatesAppend(cleaner, before, after);
    assert [line][..0] == [];
  }

  /** Reading one more line adds its cleaned form as a candidate exactly when it is not empty. */
  lemma CandidatesPrefixStep(cleaner: LineCleaner, lines: seq<string>, i: nat)
    requires i < |lines|
    ensures Candidates(cleaner, lines[..i + 1]) ==
            Candidates(cleaner, lines[..i]) + (if |Clean(cleaner, lines[i])| > 0 then [Clean(cleaner, lines[i])] else [])
  {
    assert lines[..i + 1][..i] == lines[..i];
  }

  /**
   * When line `i` is the first non-blank line that fails verification, its cleaned form is
   * the first invalid candidate of the whole file and the candidates before it are those of
   * the lines before it.
   */
  lemma FirstInvalidCandidate(codec: AddressCodec, cleaner: LineCleaner, lines: seq<string>, i: nat)
    requires i < |lines|
    requires AllValid(codec, Candidates(cleaner, lines[..i]))
    requires |Clean(cleaner, lines[i])| > 0 && !codec.verifyAddress(Clean(cleaner, lines[i]))
    ensures var candidates := Candidates(cleaner, lines);
            var k := FirstInvalid(codec, candidates);
            && k == |Candidates(cleaner, lines[..i])|
            && k < |candidates|
            && candidates[k] == Clean(cleaner, lines[i])
            && candidates[..k] == Candidates(cleaner, lines[..i])
            && !AllValid(codec, candidates)
  {
    var done := Candidates(cleaner, lines[..i]);
    CandidatesPrefixStep(cleaner, lines, i);
    CandidatesAppend(cleaner, lines[..i + 1], lines[i + 1..]);
    assert lines[..i + 1] + lines[i + 1..] == lines;
    var candidates := Candidates(cleaner, lines);
    assert candidates[..|done|] == done;
    assert candidates[|done|] == Clean(cleaner, lines[i]);
    FirstInvalidAt(codec, candidates, |done|);
  }

  /**
   * A line that is blank after cleaning, or that verifies, keeps the candidates so far
   * valid and adds its hash, if any, to theirs.
   */
  lemma ValidCandidateStep(codec: AddressCodec, cleaner: LineCleaner, lines: seq<string>, i: nat)
    requires i < |lines|
    requires AllValid(codec, Candidates(cleaner, lines[..i]))
    requires |Clean(cleaner, lines[i])| > 0 ==> codec.verifyAddress(Clean(cleaner, lines[i]))
    ensures AllValid(codec, Candidates(cleaner, lines[..i + 1]))
    ensures HashesOf(codec, Candidates(cleaner, lines[..i + 1])) ==
            HashesOf(codec, Candidates(cleaner, lines[..i])) +
            (if |Clean(cleaner, lines[i])| > 0 then {codec.toHash160(Clean(cleaner, lines[i]))} else {})
  {
    var line := Clean(cleaner, lines[i]);
    var done := Candidates(cleaner, lines[..i]);
    CandidatesPrefixStep(cleaner, lines, i);
    if |line| > 0 {
      HashesOfSnoc(codec, done, line);
      assert (done + [line])[|done|] == line;
    } else {
      assert done + [] == done;
    }
  }
}

=== FILE: bitscan.dfy ===
/**
 * The two bit-scanning helpers of KeyFinder on `uint64_t` words: `LZC` counts the
 * zero bits above the highest set bit, `TZC` the zero bits below the lowest set bit.
 * Both return 64 for the zero word.
 */
module BitScan {

  /** Bit `i` of `x` is one: `(1 & x >> i) != 0`. */
  predicate BitSet(x: bv64, i: bv64)
    requires i < 64
  {
    (x >> i) & 1 == 1
  }

  /**
   * `c` is the leading-zero count of `x`: 64 for zero; otherwise bit `63 - c` is set
   * and every bit above it is clear (shifting right by `64 - c` leaves nothing).
   */
  predicate IsLeadingZeroCount(x: bv64, c: bv64)
  {
    if x == 0 then c == 64
    else c < 64 && BitSet(x, 63 - c) && x >> (64 - c) == 0
  }

  /**
   * `c` is the trailing-zero count of `x`: 64 for zero; otherwise bit `c` is set
   * and every bit below it is clear (shifting left by `64 - c` leaves nothing).
   */
  predicate IsTrailingZeroCount(x: bv64, c: bv64)
  {
    if x == 0 then c == 64
    else c < 64 && BitSet(x, c) && x << (64 - c) == 0
  }

  /** If bits `k` and up are clear and bit `k - 1` is clear too, bits `k - 1` and up are clear. */
  lemma ClearFromBelow(x: bv64, k: bv64)
    requires 0 < k <= 64
    requires x >> k == 0
    requires !BitSet(x, k - 1)
    ensures x >> (k - 1) == 0
  {
  }

  /** If bits below `i` are clear and bit `i` is clear too, bits below `i + 1` are clear. */
  lemma ClearUpTo(x: bv64, i: bv64)
    requires i < 64
    requires x << (64 - i) == 0
    requires !BitSet(x, i)
    ensures x << (64 - (i + 1)) == 0
  {
  }

  /**
   * Scans from bit 63 downwards, counting clear bits until the first set one.
   * The loop counter `n` is `63 - i` for the source's bit index `i`.
   */
  method LZC(x: bv64) returns (c: bv64)
    ensures IsLeadingZeroCount(x, c)
  {
    c := 0;
    if x == 0 {
      return 64;
    }
    var n: bv64 := 0;
    while n <= 63
      invariant n <= 64
      invariant c == n
      invariant x >> (64 - n) == 0
    {
      var i := 63 - n;
      if (x >> i) & 1 == 0 {
        ClearFromBelow(x, 64 - n);
        c := c + 1;
      } else {
        return c;
      }
      n := n + 1;
    }
  }

  /** Scans from bit 0 upwards, counting clear bits until the first set one. */
  method TZC(x: bv64) returns (c: bv64)
    ensures IsTrailingZeroCount(x, c)
  {
    c := 0;
    if x == 0 {
      return 64;
    }
    var i: bv64 := 0;
    while i <= 63
      invariant i <= 64
      invariant c == i
      invariant x << (64 - i) == 0
    {
      if (x >> i) & 1 == 0 {
        ClearUpTo(x, i);
        c := c + 1;
      } else {
        return c;
      }
      i := i + 1;
    }
  }

  /** The leading-zero count of a word is unique, so `LZC` is fully determined by its contract. */
  lemma LeadingZeroCountUnique(x: bv64, c1: bv64, c2: bv64)
    requires IsLeadingZeroCount(x, c1) && IsLeadingZeroCount(x, c2)
    ensures c1 == c2
  {
    if x != 0 {
      LeadingZeroCountBound(x, c1, c2);
      LeadingZeroCountBound(x, c2, c1);
    }
  }

  /** A set bit `63 - c1` lies among the bits a count `c2` claims clear unless `c2 <= c1`. */
  lemma LeadingZeroCountBound(x: bv64, c1: bv64, c2: bv64)
    requires c1 < 64 && BitSet(x, 63 - c1)
    requires c2 < 64 && x >> (64 - c2) == 0
    ensures c2 <= c1
  {
    if c1 < c2 {
      HighBitClear(x, c2, 63 - c1);
    }
  }

  /** When the bits from `64 - c` up are clear, so is any bit `j` among them. */
  lemma HighBitClear(x: bv64, c: bv64, j: bv64)
    requires c < 64 && 64 - c <= j < 64
    requires x >> (64 - c) == 0
    ensures !BitSet(x, j)
  {
  }

  /** The trailing-zero count of a word is unique, so `TZC` is fully determined by its contract. */
  lemma TrailingZeroCountUnique(x: bv64, c1: bv64, c2: bv64)
    requires IsTrailingZeroCount(x, c1) && IsTrailingZeroCount(x, c2)
    ensures c1 == c2
  {
    if x != 0 {
      if c1 < c2 {
        LowBitClear(x, c2, c1);
      } else if c2 < c1 {
        LowBitClear(x, c1, c2);
      }
    }
  }

  /** When the bits below `c` are clear, so is any bit `j` below `c`. */
  lemma LowBitClear(x: bv64, c: bv64, j: bv64)
    requires j < c < 64
    requires x << (64 - c) == 0
    ensures !BitSet(x, j)
  {
  }

  /** The highest set bit is never below the lowest one, so the two counts leave at least one bit. */
  lemma CountsLeaveSetBit(x: bv64, lead: bv64, trail: bv64)
    requires x != 0
    requires IsLeadingZeroCount(x, lead) && IsTrailingZeroCount(x, trail)
    ensures lead + trail <= 63
  {
  }

  /** For a single set bit `k`, `LZC` gives `63 - k` and `TZC` gives `k`. */
  lemma SingleBitCounts(k: bv64)
    requires k < 64
    ensures IsLeadingZeroCount(1 << k, 63 - k)
    ensures IsTrailingZeroCount(1 << k, k)
  {
  }
}

=== FILE: devicemanager.dfy ===
/**
 * `DeviceManager::getDevices`: turns the CUDA driver's device list into the
 * program's own device descriptors. Device enumeration itself is the driver's
 * business; its answer (a list or a `CudaException`) is the input here.
 */
module DeviceManager {
  import opened Outcomes
  import opened UInt64

  /** What the CUDA layer reports for one device. */
  datatype CudaDeviceInfo = CudaDeviceInfo(id: int, name: string, mem: u64, mpCount: int)

  /** The enumeration failure of the CUDA layer, with its message. */
  datatype CudaException = CudaException(msg: string)

  /** The failure `getDevices` raises in its place, with the same message. */
  datatype DeviceManagerException = DeviceManagerException(msg: string)

  /** The backends a descriptor can name; `getDevices` only produces CUDA ones. */
  datatype DeviceType = CUDA | OpenCL

  /** A device descriptor: a logical id of this program, and what the backend reported. */
  datatype DeviceInfo = DeviceInfo(
    deviceType: DeviceType,
    id: int,
    physicalId: int,
    name: string,
    memory: u64,
    computeUnits: int)

  /** The backend record a descriptor was built from: the inverse of the field copy. */
  function BackendInfo(d: DeviceInfo): CudaDeviceInfo
  {
    CudaDeviceInfo(d.physicalId, d.name, d.memory, d.computeUnits)
  }

  /**
   * A driver failure becomes a `DeviceManagerException` with the driver's message and no
   * list. Otherwise there is one descriptor per backend device, in backend order; the
   * descriptor at position `i` has logical id `i`, type CUDA, and the backend's id,
   * name, memory and compute-unit count.
   */
  method GetDevices(backend: Result<seq<CudaDeviceInfo>, CudaException>)
    returns (r: Result<seq<DeviceInfo>, DeviceManagerException>)
    ensures backend.Failure? ==> r == Failure(DeviceManagerException(backend.error.msg))
    ensures backend.Success? ==> r.Success? && |r.value| == |backend.value|
    ensures backend.Success? ==> forall i | 0 <= i < |r.value| ::
              && r.value[i].id == i
              && r.value[i].deviceType == CUDA
              && BackendInfo(r.value[i]) == backend.value[i]
  {
    if backend.Failure? {
      return Failure(DeviceManagerException(backend.error.msg));
    }
    var cudaDevices := backend.value;
    var deviceId := 0;
    var devices: seq<DeviceInfo> := [];
    var i := 0;
    while i < |cudaDevices|
      invariant 0 <= i <= |cudaDevices|
      invariant deviceId == i
      invariant |devices| == i
      invariant forall j | 0 <= j < i ::
                  && devices[j].id == j
                  && devices[j].deviceType == CUDA
                  && BackendInfo(devices[j]) == cudaDevices[j]
    {
      var device := DeviceInfo(
        deviceType := CUDA,
        id := deviceId,
        physicalId := cudaDevices[i].id,
        name := cudaDevices[i].name,
        memory := cudaDevices[i].mem,
        computeUnits := cudaDevices[i].mpCount);
      devices := devices + [device];
      deviceId := deviceId + 1;
      i := i + 1;
    }
    return Success(devices);
  }
}

=== FILE: keyfinder.dfy ===
/**
 * The host-side search control of KeyFinder: the target set and its loaders, the
 * per-iteration step of the run loop, the stop decision and the restride.
 *
 * The device is an oracle. Each iteration of the run loop is given an `Observation`:
 * the cursor the device reports after stepping, whether a status report is due
 * (the wall-clock timer reached the interval), the batch of matches the device
 * returns, the stride a random draw would produce, and whether `stop()` was called
 * while the iteration ran. What the model tracks of the device itself is the target
 * set and the stride the host last installed on it.
 */
module KeyFinder {
  import opened Outcomes
  import opened UInt64
  import opened Addresses

  /**
   * Construction parameters that stay fixed during a search. `randomStrideBits` only
   * feeds the random stride draw, which is an input here; `keysPerStep` is the
   * per-step key count the device reports when the run starts.
   */
  datatype Config = Config(
    startKey: nat,
    endKey: nat,
    compression: int,
    randomStride: bool,
    continueAfterEnd: bool,
    randomStrideBits: nat,
    keysPerStep: u64)

  /**
   * The mutable state of a KeyFinder. `prevIterCount` is the run loop's local of the
   * same name; `deviceTargets` and `deviceStride` are what the host last handed to the
   * device (`None` before the first hand-over).
   */
  datatype Finder = Finder(
    targets: set<Hash>,
    deviceTargets: Option<set<Hash>>,
    deviceStride: Option<nat>,
    stride: nat,
    running: bool,
    iterCount: u64,
    prevIterCount: u64,
    total: u64,
    rStrideCount: nat)

  /** Why a target load failed: the `KeySearchException` cases. */
  datatype LoadError = NoTargets | InvalidAddress(address: string) | CannotOpen(path: string)

  /** A targets file as the loader sees it: its lines, or `None` when it cannot be opened. */
  datatype TargetFile = TargetFile(path: string, lines: Option<seq<string>>)

  /** One match record returned by the device's `getResults`. */
  datatype DeviceMatch = DeviceMatch(privateKey: nat, publicKey: PublicKey, compressed: bool, hash: Hash)

  /** What the device and the environment supply to one iteration of the run loop. */
  datatype Observation = Observation(
    cursor: nat,
    statusDue: bool,
    results: seq<DeviceMatch>,
    drawnStride: nat,
    stopRequested: bool)

  /** The status snapshot passed to the status callback (speed, time and memory are not modelled). */
  datatype Status = Status(total: u64, targets: nat, nextKey: nat, stride: nat, rStrideCount: nat)

  /** The result record passed to the result callback. */
  datatype SearchResult = SearchResult(privateKey: nat, publicKey: PublicKey, compressed: bool, address: string)

  /** What the host does that is visible outside: the two callbacks and each removal from the target set. */
  datatype Event = StatusReported(status: Status) | ResultReported(result: SearchResult) | TargetRemoved(hash: Hash)

  datatype StepOutcome = StepOutcome(state: Finder, events: seq<Event>)

  datatype RunOutcome = RunOutcome(state: Finder, events: seq<Event>, iterations: nat)

  /** The device holds exactly the host's target set. */
  predicate TargetsInSync(s: Finder)
  {
    s.deviceTargets == Some(s.targets)
  }

  /** The device searches with the host's stride. */
  predicate StrideInSync(s: Finder)
  {
    s.deviceStride == Some(s.stride)
  }

  /**
   * The constructor: counters start at zero, and the stride is a random draw when random
   * strides are enabled, the caller's stride otherwise. The source leaves `_running`
   * unset until `run()`; the model starts it false.
   */
  function Create(cfg: Config, stride: nat, draw: nat): (f: Finder)
    ensures cfg.randomStride ==> f.stride == draw
    ensures !cfg.randomStride ==> f.stride == stride
    ensures f.targets == {} && f.deviceTargets == None && f.deviceStride == None
    ensures f.iterCount == 0 && f.prevIterCount == 0 && f.total == 0 && f.rStrideCount == 0
    ensures !f.running
  {
    Finder(
      targets := {},
      deviceTargets := None,
      deviceStride := None,
      stride := if cfg.randomStride then draw else stride,
      running := false,
      iterCount := 0,
      prevIterCount := 0,
      total := 0,
      rStrideCount := 0)
  }

  /** `init()`: hands the current stride (with start key and compression mode) to the device. */
  function Init(s: Finder): (r: Finder)
    ensures StrideInSync(r)
    ensures r.(deviceStride := s.deviceStride) == s
  {
    s.(deviceStride := Some(s.stride))
  }

  /** `setTargetsOnDevice()`: hands the whole target set to the device. */
  function SetTargetsOnDevice(s: Finder): (r: Finder)
    ensures TargetsInSync(r)
    ensures r.(deviceTargets := s.deviceTargets) == s
  {
    s.(deviceTargets := Some(s.targets))
  }

  /**
   * `setTargets(vector<string>)`. An empty list fails before anything changes. Otherwise
   * the host set is cleared and refilled address by address; the first address that
   * fails verification aborts the load, leaving the hashes of the addresses before it in
   * the host set and the device untouched. On success the host set is the set of
   * decoded hashes and the device receives it.
   */
  method SetTargetsFromList(codec: AddressCodec, s: Finder, addresses: seq<string>)
    returns (r: Finder, err: Option<LoadError>)
    ensures |addresses| == 0 ==> r == s && err == Some(NoTargets)
    ensures err.None? <==> |addresses| > 0 && AllValid(codec, addresses)
    ensures err.None? ==> TargetsInSync(r) && r == s.(targets := HashesOf(codec, addresses), deviceTargets := r.deviceTargets)
    ensures |addresses| > 0 && err.Some? ==>
      var k := FirstInvalid(codec, addresses);
      k < |addresses| && err == Some(InvalidAddress(addresses[k])) &&
      r == s.(targets := HashesOf(codec, addresses[..k]))
  {
    if |addresses| == 0 {
      return s, Some(NoTargets);
    }
    var targets: set<Hash> := {};
    var i := 0;
    while i < |addresses|
      invariant 0 <= i <= |addresses|
      invariant AllValid(codec, addresses[..i])
      invariant targets == HashesOf(codec, addresses[..i])
    {
      if !codec.verifyAddress(addresses[i]) {
        FirstInvalidAt(codec, addresses, i);
        return s.(targets := targets), Some(InvalidAddress(addresses[i]));
      }
      assert addresses[..i + 1] == addresses[..i] + [addresses[i]];
      HashesOfSnoc(codec, addresses[..i], addresses[i]);
      targets := targets + {codec.toHash160(addresses[i])};
      i := i + 1;
    }
    assert addresses[..i] == addresses;
    r := SetTargetsOnDevice(s.(targets := targets));
    err := None;
  }

  /**
   * `setTargets(string)`. A file that cannot be opened fails before anything changes.
   * Otherwise the host set is cleared and each line is cleaned; lines that are then
   * empty are skipped, and the first remaining line that fails verification aborts the
   * load with the device untouched. On success (even with no addresses at all) the host
   * set is the set of decoded hashes of the remaining lines and the device receives it.
   */
  method SetTargetsFromFile(codec: AddressCodec, cleaner: LineCleaner, s: Finder, file: TargetFile)
    returns (r: Finder, err: Option<LoadError>)
    ensures file.lines.None? ==> r == s && err == Some(CannotOpen(file.path))
    ensures file.lines.Some? ==>
      var candidates := Candidates(cleaner, file.lines.value);
      && (err.None? <==> AllValid(codec, candidates))
      && (err.None? ==> TargetsInSync(r) && r == s.(targets := HashesOf(codec, candidates), deviceTargets := r.deviceTargets))
      && (err.Some? ==>
            var k := FirstInvalid(codec, candidates);
            k < |candidates| && err == Some(InvalidAddress(candidates[k])) &&
            r == s.(targets := HashesOf(codec, candidates[..k])))
  {
    if file.lines.None? {
      return s, Some(CannotOpen(file.path));
    }
    var lines := file.lines.value;
    var targets: set<Hash> := {};
    var i := 0;
    while i < |lines|
      invariant 0 <= i <= |lines|
      invariant AllValid(codec, Candidates(cleaner, lines[..i]))
      invariant targets == HashesOf(codec, Candidates(cleaner, lines[..i]))
    {
      var line := Clean(cleaner, lines[i]);
      if |line| > 0 && !codec.verifyAddress(line) {
        FirstInvalidCandidate(codec, cleaner, lines, i);
        return s.(targets := targets), Some(InvalidAddress(line));
      }
      ValidCandidateStep(codec, cleaner, lines, i);
      if |line| > 0 {
        targets := targets + {codec.toHash160(line)};
      }
      i := i + 1;
    }
    assert lines[..i] == lines;
    r := SetTargetsOnDevice(s.(targets := targets));
    err := None;
  }

  /** `isTargetInList`. */
  predicate Contains(s: Finder, h: Hash)
  {
    h in s.targets
  }

  /**
   * `removeTargetFromList`: afterwards `h` is no longer a target, every other target is
   * still one, nothing else changes, and removing an absent hash changes nothing.
   */
  function RemoveTarget(s: Finder, h: Hash): (r: Finder)
    ensures !Contains(r, h)
    ensures forall g | g != h :: Contains(r, g) <==> Contains(s, g)
    ensures !Contains(s, h) ==> r == s
    ensures r.(targets := s.targets) == s
  {
    s.(targets := s.targets - {h})
  }

  /** `stop()`: clears the running flag and nothing else. */
  function Stop(s: Finder): (r: Finder)
    ensures !r.running
    ensures r.(running := s.running) == s
  {
    s.(running := false)
  }

  /** The hashes of a batch of matches. */
  function BatchHashes(batch: seq<DeviceMatch>): set<Hash>
  {
    if |batch| == 0 then {} else {batch[0].hash} + BatchHashes(batch[1..])
  }

  /** A hash belongs to a batch exactly when some match of the batch carries it. */
  lemma {:induction false} BatchHashesMembers(batch: seq<DeviceMatch>)
    ensures forall i | 0 <= i < |batch| :: batch[i].hash in BatchHashes(batch)
    ensures forall h | h in BatchHashes(batch) :: exists i | 0 <= i < |batch| :: batch[i].hash == h
  {
    if |batch| > 0 {
      BatchHashesMembers(batch[1..]);
      forall i | 1 <= i < |batch|
        ensures batch[i].hash in BatchHashes(batch)
      {
        assert batch[i] == batch[1..][i - 1];
      }
      forall h | h in BatchHashes(batch)
        ensures exists i | 0 <= i < |batch| :: batch[i].hash == h
      {
        if h != batch[0].hash {
          var j :| 0 <= j < |batch[1..]| && batch[1..][j].hash == h;
          assert batch[j + 1].hash == h;
        }
      }
    }
  }

  /** The record the result callback receives for one match; the address is derived from the public key. */
  function ToSearchResult(codec: AddressCodec, m: DeviceMatch): (r: SearchResult)
    ensures r.privateKey == m.privateKey && r.publicKey == m.publicKey && r.compressed == m.compressed
    ensures r.address == codec.fromPublicKey(m.publicKey, m.compressed)
  {
    SearchResult(m.privateKey, m.publicKey, m.compressed, codec.fromPublicKey(m.publicKey, m.compressed))
  }

  /** The result callbacks for a batch. */
  function Reports(codec: AddressCodec, batch: seq<DeviceMatch>): seq<Event>
  {
    if |batch| == 0 then [] else [ResultReported(ToSearchResult(codec, batch[0]))] + Reports(codec, batch[1..])
  }

  /** One result callback per match, in the order the device returned them. */
  lemma {:induction false} ReportsInOrder(codec: AddressCodec, batch: seq<DeviceMatch>)
    ensures |Reports(codec, batch)| == |batch|
    ensures forall i | 0 <= i < |batch| :: Reports(codec, batch)[i] == ResultReported(ToSearchResult(codec, batch[i]))
  {
    if |batch| > 0 {
      ReportsInOrder(codec, batch[1..]);
      forall i | 1 <= i < |batch|
        ensures Reports(codec, batch)[i] == ResultReported(ToSearchResult(codec, batch[i]))
      {
        assert batch[i] == batch[1..][i - 1];
      }
    }
  }

  /** The removals for a batch. */
  function Removals(batch: seq<DeviceMatch>): seq<Event>
  {
    if |batch| == 0 then [] else [TargetRemoved(batch[0].hash)] + Removals(batch[1..])
  }

  /** One removal per match, in the order the device returned them. */
  lemma {:induction false} RemovalsInOrder(batch: seq<DeviceMatch>)
    ensures |Removals(batch)| == |batch|
    ensures forall i | 0 <= i < |batch| :: Removals(batch)[i] == TargetRemoved(batch[i].hash)
  {
    if |batch| > 0 {
      RemovalsInOrder(batch[1..]);
      forall i | 1 <= i < |batch|
        ensures Removals(batch)[i] == TargetRemoved(batch[i].hash)
      {
        assert batch[i] == batch[1..][i - 1];
      }
    }
  }

  /**
   * The removal loop over a batch: afterwards no hash of the batch is a target, every
   * other target remains, and nothing but the target set changes.
   */
  function RemoveBatch(s: Finder, batch: seq<DeviceMatch>): (r: Finder)
    ensures r.targets == s.targets - BatchHashes(batch)
    ensures r.(targets := s.targets) == s
    decreases |batch|
  {
    if |batch| == 0 then s else RemoveBatch(RemoveTarget(s, batch[0].hash), batch[1..])
  }

  /**
   * Result processing of one iteration: the result callbacks of the batch, then the
   * removal of every matched hash, which is all that changes; there are two events per
   * match.
   */
  function DrainResults(codec: AddressCodec, s: Finder, batch: seq<DeviceMatch>): (r: StepOutcome)
    ensures r.state.(targets := s.targets) == s
    ensures |r.events| == 2 * |batch|
  {
    ReportsInOrder(codec, batch);
    RemovalsInOrder(batch);
    StepOutcome(s.(targets := s.targets - BatchHashes(batch)), Reports(codec, batch) + Removals(batch))
  }

  /** After result processing the old targets split into those kept and those matched, and no matched hash is kept. */
  lemma DrainSplitsTargets(codec: AddressCodec, s: Finder, batch: seq<DeviceMatch>)
    ensures var r := DrainResults(codec, s, batch).state;
            && r.targets + (s.targets * BatchHashes(batch)) == s.targets
            && r.targets !! BatchHashes(batch)
  {
  }

  /**
   * The state result processing leaves is the one the source's removal loop leaves:
   * `removeTargetFromList` applied to each match of the batch in turn.
   */
  lemma DrainIsRemovalLoop(codec: AddressCodec, s: Finder, batch: seq<DeviceMatch>)
    ensures DrainResults(codec, s, batch).state == RemoveBatch(s, batch)
  {
  }

  /**
   * The events of result processing: the result callback of every match, in the device's
   * order, and then the removal of every match's hash, in the same order.
   */
  lemma DrainEvents(codec: AddressCodec, s: Finder, batch: seq<DeviceMatch>)
    ensures var r := DrainResults(codec, s, batch);
            && |r.events| == 2 * |batch|
            && (forall i | 0 <= i < |batch| :: r.events[i] == ResultReported(ToSearchResult(codec, batch[i])))
            && (forall i | 0 <= i < |batch| :: r.events[|batch| + i] == TargetRemoved(batch[i].hash))
  {
    ReportsInOrder(codec, batch);
    RemovalsInOrder(batch);
  }

  /**
   * The status block: the keys counted since the last report are
   * `(iterCount - prevIterCount) * keysPerStep` in 64-bit arithmetic, added to `total`;
   * the snapshot carries the new total, the target count, the cursor, the stride and the
   * restride count; `prevIterCount` catches up with `iterCount`. Without 64-bit overflow
   * the total grows by exactly the keys counted.
   */
  function EmitStatus(cfg: Config, s: Finder, cursor: nat): (r: StepOutcome)
    ensures r.state.prevIterCount == s.iterCount
    ensures r.state.(total := s.total, prevIterCount := s.prevIterCount) == s
    ensures r.events == [StatusReported(Status(r.state.total, |s.targets|, cursor, s.stride, s.rStrideCount))]
    ensures s.prevIterCount <= s.iterCount && s.total + Product(s.iterCount - s.prevIterCount, cfg.keysPerStep) < MOD ==>
              r.state.total == s.total + Product(s.iterCount - s.prevIterCount, cfg.keysPerStep)
  {
    var count := Mul(Sub(s.iterCount, s.prevIterCount), cfg.keysPerStep);
    var total := Add(s.total, count);
    var status := Status(total, |s.targets|, cursor, s.stride, s.rStrideCount);
    StepOutcome(s.(total := total, prevIterCount := s.iterCount), [StatusReported(status)])
  }

  /** The range test: the cursor has reached the end key or fallen below the start key. */
  predicate Exhausted(cfg: Config, cursor: nat)
  {
    cursor >= cfg.endKey || cursor < cfg.startKey
  }

  /** The restride exception to the range test: continuing after the end with random strides. */
  predicate ContinuesPastEnd(cfg: Config)
  {
    cfg.continueAfterEnd && cfg.randomStride
  }

  /**
   * `reSetupEverything()`: the drawn stride replaces the current one on the host and on
   * the device, the restride count grows by one, and nothing else changes.
   */
  function Restride(s: Finder, drawn: nat): (r: Finder)
    ensures r.stride == drawn && r.deviceStride == Some(drawn)
    ensures r.rStrideCount == s.rStrideCount + 1
    ensures r.(stride := s.stride, deviceStride := s.deviceStride, rStrideCount := s.rStrideCount) == s
  {
    s.(stride := drawn, deviceStride := Some(drawn), rStrideCount := s.rStrideCount + 1)
  }

  /** Some rule clears the running flag after an iteration that leaves `targets` and observed `obs`. */
  predicate StopsAfter(cfg: Config, targets: set<Hash>, obs: Observation)
  {
    || targets == {}
    || (Exhausted(cfg, obs.cursor) && !ContinuesPastEnd(cfg))
    || obs.stopRequested
  }

  /**
   * The status block runs only when a report is due: then there is exactly one status
   * callback, carrying the new total, and `prevIterCount` catches up; otherwise there is
   * no callback and nothing changes. Only `total` and `prevIterCount` ever change.
   */
  function ReportIfDue(cfg: Config, s: Finder, obs: Observation): (r: StepOutcome)
    ensures r.events == if obs.statusDue then [StatusReported(Status(r.state.total, |s.targets|, obs.cursor, s.stride, s.rStrideCount))] else []
    ensures r.state.(total := s.total, prevIterCount := s.prevIterCount) == s
    ensures obs.statusDue ==> r.state.prevIterCount == s.iterCount
    ensures !obs.statusDue ==> r.state == s
    ensures obs.statusDue && s.prevIterCount <= s.iterCount && s.total + Product(s.iterCount - s.prevIterCount, cfg.keysPerStep) < MOD ==>
              r.state.total == s.total + Product(s.iterCount - s.prevIterCount, cfg.keysPerStep)
  {
    if obs.statusDue then EmitStatus(cfg, s, obs.cursor) else StepOutcome(s, [])
  }

  /**
   * The end of an iteration: the flag goes down when no target is left; when the cursor
   * has left the range the finder restrides if it continues past the end and the flag
   * goes down otherwise; a `stop()` during the iteration leaves the flag down. So the flag
   * stays up exactly when it was up and no stop rule holds, and the stride changes
   * exactly when the finder restrides.
   */
  function CheckStop(cfg: Config, s: Finder, obs: Observation): (r: Finder)
    ensures r.running <==> s.running && !StopsAfter(cfg, s.targets, obs)
    ensures Exhausted(cfg, obs.cursor) && ContinuesPastEnd(cfg) ==>
              r.(running := s.running) == Restride(s, obs.drawnStride)
    ensures !(Exhausted(cfg, obs.cursor) && ContinuesPastEnd(cfg)) ==> r.(running := s.running) == s
    ensures r.total == s.total && r.iterCount == s.iterCount && r.prevIterCount == s.prevIterCount
  {
    var afterTargets := if |s.targets| == 0 then s.(running := false) else s;
    var afterRange :=
      if Exhausted(cfg, obs.cursor) then
        if ContinuesPastEnd(cfg) then Restride(afterTargets, obs.drawnStride)
        else afterTargets.(running := false)
      else afterTargets;
    if obs.stopRequested then Stop(afterRange) else afterRange
  }

  /**
   * One pass of the run loop body: step the device and count the iteration; report
   * status if due; report and then remove the batch's matches; then apply the stop rules.
   */
  function Step(cfg: Config, codec: AddressCodec, s: Finder, obs: Observation): (r: StepOutcome)
    ensures r.state.iterCount == Inc(s.iterCount)
    ensures r.state.targets == s.targets - BatchHashes(obs.results)
    ensures r.state.deviceTargets == s.deviceTargets
    ensures r.state.running <==> s.running && !StopsAfter(cfg, r.state.targets, obs)
    ensures r.state.targets == {} ==> !r.state.running
    ensures Exhausted(cfg, obs.cursor) && !ContinuesPastEnd(cfg) ==> !r.state.running
    ensures Exhausted(cfg, obs.cursor) && ContinuesPastEnd(cfg) ==>
              r.state.stride == obs.drawnStride && r.state.deviceStride == Some(obs.drawnStride) &&
              r.state.rStrideCount == s.rStrideCount + 1
    ensures !(Exhausted(cfg, obs.cursor) && ContinuesPastEnd(cfg)) ==>
              r.state.stride == s.stride && r.state.deviceStride == s.deviceStride &&
              r.state.rStrideCount == s.rStrideCount
    ensures !obs.statusDue ==> r.state.total == s.total && r.state.prevIterCount == s.prevIterCount
    ensures obs.statusDue ==> r.state.prevIterCount == r.state.iterCount
  {
    var reported := ReportIfDue(cfg, s.(iterCount := Inc(s.iterCount)), obs);
    var drained := DrainResults(codec, reported.state, obs.results);
    StepOutcome(CheckStop(cfg, drained.state, obs), reported.events + drained.events)
  }

  /** After an iteration, no hash the device matched in it is still a target. */
  lemma StepRemovesMatches(cfg: Config, codec: AddressCodec, s: Finder, obs: Observation)
    ensures forall i | 0 <= i < |obs.results| :: obs.results[i].hash !in Step(cfg, codec, s, obs).state.targets
  {
    BatchHashesMembers(obs.results);
  }

  /** An iteration's counters are those the status stage leaves; the later stages keep them. */
  lemma StepCountersFromReport(cfg: Config, codec: AddressCodec, s: Finder, obs: Observation)
    ensures var r := Step(cfg, codec, s, obs).state;
            var t := ReportIfDue(cfg, s.(iterCount := Inc(s.iterCount)), obs).state;
            r.total == t.total && r.iterCount == t.iterCount && r.prevIterCount == t.prevIterCount
  {
  }

  /**
   * The `while (_running)` loop over the iterations the device supplies. It ends when the
   * running flag is down at the guard, or when the supplied iterations run out.
   */
  function Loop(cfg: Config, codec: AddressCodec, s: Finder, trace: seq<Observation>): (r: RunOutcome)
    ensures r.iterations <= |trace|
    ensures r.iterations == 0 <==> !s.running || |trace| == 0
    ensures r.state.running ==> r.iterations == |trace|
    ensures r.iterations < |trace| ==> !r.state.running
    decreases |trace|
  {
    if !s.running || |trace| == 0 then RunOutcome(s, [], 0)
    else
      var step := Step(cfg, codec, s, trace[0]);
      var rest := Loop(cfg, codec, step.state, trace[1..]);
      RunOutcome(rest.state, step.events + rest.events, rest.iterations + 1)
  }

  /**
   * `run()`: raises the running flag, resets the loop's `prevIterCount` and enters the
   * loop. The flag is raised unconditionally, so at least one iteration runs even when
   * `stop()` came before `run()`.
   */
  function Run(cfg: Config, codec: AddressCodec, s: Finder, trace: seq<Observation>): (r: RunOutcome)
    ensures |trace| > 0 ==> r.iterations >= 1
    ensures r.iterations <= |trace|
    ensures r.iterations < |trace| ==> !r.state.running
  {
    Loop(cfg, codec, s.(running := true, prevIterCount := 0), trace)
  }
}

=== FILE: outcomes.dfy ===
/** Failure-carrying return types used in place of the source's exceptions. */
module Outcomes {

  /** A value that may be absent. */
  datatype Option<+T> = None | Some(value: T)

  /** Either a value or the error a C++ `throw` would have raised instead. */
  datatype Result<+R, +E> = Success(value: R) | Failure(error: E)
}

=== FILE: search_properties.dfy ===
/**
 * Properties of the KeyFinder run loop over whole runs: which iteration ends the run,
 * what is left of the target set, how often the stride is replaced, which results are
 * reported and in what order, and how the reported key total evolves.
 */
module SearchProperties {
  import opened UInt64
  import opened Addresses
  import opened KeyFinder

  /** The result callbacks among the events, in order. */
  function ResultsOf(events: seq<Event>): seq<SearchResult>
  {
    if |events| == 0 then []
    else (if events[0].ResultReported? then [events[0].result] else []) + ResultsOf(events[1..])
  }

  /** The totals of the status snapshots among the events, in order. */
  function TotalsOf(events: seq<Event>): seq<u64>
  {
    if |events| == 0 then []
    else (if events[0].StatusReported? then [events[0].status.total] else []) + TotalsOf(events[1..])
  }

  /** The records the result callback receives for a sequence of matches. */
  function ResultsFor(codec: AddressCodec, matches: seq<DeviceMatch>): seq<SearchResult>
  {
    if |matches| == 0 then [] else [ToSearchResult(codec, matches[0])] + ResultsFor(codec, matches[1..])
  }

  /** Every matched hash of the given iterations. */
  function TraceHashes(trace: seq<Observation>): set<Hash>
  {
    if |trace| == 0 then {} else BatchHashes(trace[0].results) + TraceHashes(trace[1..])
  }

  /** Every match of the given iterations, in the order the device returned them. */
  function TraceMatches(trace: seq<Observation>): seq<DeviceMatch>
  {
    if |trace| == 0 then [] else trace[0].results + TraceMatches(trace[1..])
  }

  /** The number of the given iterations whose cursor left the range while restriding is configured. */
  function RestrideCount(cfg: Config, trace: seq<Observation>): nat
  {
    if |trace| == 0 then 0
    else (if Exhausted(cfg, trace[0].cursor) && ContinuesPastEnd(cfg) then 1 else 0) + RestrideCount(cfg, trace[1..])
  }

  /** No removal comes before a result callback. */
  predicate ReportsBeforeRemovals(events: seq<Event>)
  {
    forall i, j | 0 <= i < j < |events| :: !(events[i].TargetRemoved? && events[j].ResultReported?)
  }

  /** A sequence that never goes down. */
  predicate NonDecreasing(xs: seq<u64>)
  {
    forall i, j | 0 <= i <= j < |xs| :: xs[i] <= xs[j]
  }

  /** `xs` never decreases and stays between `lo` and `hi`, with `lo <= hi`. */
  predicate Chained(xs: seq<u64>, lo: int, hi: int)
  {
    && lo <= hi
    && NonDecreasing(xs)
    && forall i | 0 <= i < |xs| :: lo <= xs[i] <= hi
  }

  lemma {:induction false} ResultsOfAppend(a: seq<Event>, b: seq<Event>)
    ensures ResultsOf(a + b) == ResultsOf(a) + ResultsOf(b)
  {
    if |a| > 0 {
      assert (a + b)[1..] == a[1..] + b;
      ResultsOfAppend(a[1..], b);
    } else {
      assert a + b == b;
    }
  }

  lemma {:induction false} TotalsOfAppend(a: seq<Event>, b: seq<Event>)
    ensures TotalsOf(a + b) == TotalsOf(a) + TotalsOf(b)
  {
    if |a| > 0 {
      assert (a + b)[1..] == a[1..] + b;
      TotalsOfAppend(a[1..], b);
    } else {
      assert a + b == b;
    }
  }

  lemma {:induction false} ResultsForAppend(codec: AddressCodec, a: seq<DeviceMatch>, b: seq<DeviceMatch>)
    ensures ResultsFor(codec, a + b) == ResultsFor(codec, a) + ResultsFor(codec, b)
  {
    if |a| > 0 {
      assert (a + b)[1..] == a[1..] + b;
      ResultsForAppend(codec, a[1..], b);
    } else {
      assert a + b == b;
    }
  }

  /** The result callbacks of a batch carry the batch's matches, one each, in order. */
  lemma {:induction false} ReportsCarryBatch(codec: AddressCodec, batch: seq<DeviceMatch>)
    ensures ResultsOf(Reports(codec, batch)) == ResultsFor(codec, batch)
    ensures TotalsOf(Reports(codec, batch)) == []
  {
    if |batch| > 0 {
      var r := Reports(codec, batch);
      assert r[1..] == Reports(codec, batch[1..]);
      ReportsCarryBatch(codec, batch[1..]);
    }
  }

  /** Removals carry neither results nor status snapshots. */
  lemma {:induction false} RemovalsAreSilent(batch: seq<DeviceMatch>)
    ensures ResultsOf(Removals(batch)) == []
    ensures TotalsOf(Removals(batch)) == []
  {
    if |batch| > 0 {
      var r := Removals(batch);
      assert r[1..] == Removals(batch[1..]);
      RemovalsAreSilent(batch[1..]);
    }
  }

  /** In the event log of a batch, every result callback comes before every removal. */
  lemma DrainOrder(codec: AddressCodec, s: Finder, batch: seq<DeviceMatch>)
    ensures ReportsBeforeRemovals(DrainResults(codec, s, batch).events)
  {
    var events := DrainResults(codec, s, batch).events;
    DrainEvents(codec, s, batch);
    forall i, j | 0 <= i < j < |events|
      ensures !(events[i].TargetRemoved? && events[j].ResultReported?)
    {
      if j < |batch| {
        assert events[i] == ResultReported(ToSearchResult(codec, batch[i]));
      } else {
        assert events[j] == TargetRemoved(batch[j - |batch|].hash);
      }
    }
  }

  /** The status snapshot of an iteration, if any, carries the total it leaves and no result. */
  lemma ReportIfDueEvents(cfg: Config, s: Finder, obs: Observation)
    ensures var r := ReportIfDue(cfg, s, obs);
            && ResultsOf(r.events) == []
            && TotalsOf(r.events) == (if obs.statusDue then [r.state.total] else [])
            && forall i | 0 <= i < |r.events| :: r.events[i].StatusReported?
  {
  }

  /** A prefix of status snapshots keeps every result callback ahead of every removal. */
  lemma StatusPrefixKeepsOrder(a: seq<Event>, b: seq<Event>)
    requires forall i | 0 <= i < |a| :: a[i].StatusReported?
    requires ReportsBeforeRemovals(b)
    ensures ReportsBeforeRemovals(a + b)
  {
    var e := a + b;
    forall i, j | 0 <= i < j < |e|
      ensures !(e[i].TargetRemoved? && e[j].ResultReported?)
    {
      if i >= |a| {
        assert e[i] == b[i - |a|] && e[j] == b[j - |a|];
      }
    }
  }

  /** Result processing emits no status snapshot. */
  lemma DrainSilent(codec: AddressCodec, s: Finder, batch: seq<DeviceMatch>)
    ensures TotalsOf(DrainResults(codec, s, batch).events) == []
  {
    ReportsCarryBatch(codec, batch);
    RemovalsAreSilent(batch);
    TotalsOfAppend(Reports(codec, batch), Removals(batch));
  }

  /** An iteration emits one status snapshot, carrying the total it leaves, exactly when a report is due. */
  lemma StepSnapshots(cfg: Config, codec: AddressCodec, s: Finder, obs: Observation)
    ensures var r := Step(cfg, codec, s, obs);
            TotalsOf(r.events) == (if obs.statusDue then [r.state.total] else [])
  {
    var reported := ReportIfDue(cfg, s.(iterCount := Inc(s.iterCount)), obs);
    var drained := DrainResults(codec, reported.state, obs.results);
    var r := Step(cfg, codec, s, obs);
    assert r.events == reported.events + drained.events;
    StepCountersFromReport(cfg, codec, s, obs);
    DrainSilent(codec, reported.state, obs.results);
    ReportIfDueEvents(cfg, s.(iterCount := Inc(s.iterCount)), obs);
    TotalsOfAppend(reported.events, drained.events);
  }

  /**
   * The events of one iteration: at most one status snapshot, carrying the total the
   * iteration leaves; then one result callback per match, in the device's order; and
   * every result callback before every removal.
   */
  lemma StepEvents(cfg: Config, codec: AddressCodec, s: Finder, obs: Observation)
    ensures var r := Step(cfg, codec, s, obs);
            && ResultsOf(r.events) == ResultsFor(codec, obs.results)
            && ReportsBeforeRemovals(r.events)
            && TotalsOf(r.events) == (if obs.statusDue then [r.state.total] else [])
  {
    var reported := ReportIfDue(cfg, s.(iterCount := Inc(s.iterCount)), obs);
    var drained := DrainResults(codec, reported.state, obs.results);
    var r := Step(cfg, codec, s, obs);
    assert r.events == reported.events + drained.events;
    assert drained.events == Reports(codec, obs.results) + Removals(obs.results);
    ReportsCarryBatch(codec, obs.results);
    RemovalsAreSilent(obs.results);
    ResultsOfAppend(Reports(codec, obs.results), Removals(obs.results));
    ReportIfDueEvents(cfg, s.(iterCount := Inc(s.iterCount)), obs);
    ResultsOfAppend(reported.events, drained.events);
    DrainOrder(codec, reported.state, obs.results);
    StatusPrefixKeepsOrder(reported.events, drained.events);
    StepSnapshots(cfg, codec, s, obs);
  }

  /** `TraceHashes` of a prefix, peeled at the front. */
  lemma TraceHashesPrefix(trace: seq<Observation>, j: nat)
    requires 1 <= j <= |trace|
    ensures TraceHashes(trace[..j]) == BatchHashes(trace[0].results) + TraceHashes(trace[1..][..j - 1])
  {
    assert trace[..j][1..] == trace[1..][..j - 1];
  }

  /** A run entered with the flag up and an observation to go: the first iteration, then the rest. */
  lemma LoopFirst(cfg: Config, codec: AddressCodec, s: Finder, trace: seq<Observation>)
    requires s.running && |trace| > 0
    ensures var step := Step(cfg, codec, s, trace[0]);
            var rest := Loop(cfg, codec, step.state, trace[1..]);
            Loop(cfg, codec, s, trace) == RunOutcome(rest.state, step.events + rest.events, rest.iterations + 1)
  {
  }

  /** After a run, the targets are the initial ones less every hash matched in the iterations that ran. */
  lemma {:induction false} LoopTargets(cfg: Config, codec: AddressCodec, s: Finder, trace: seq<Observation>)
    ensures var r := Loop(cfg, codec, s, trace);
            r.state.targets == s.targets - TraceHashes(trace[..r.iterations])
    decreases |trace|
  {
    if s.running && |trace| > 0 {
      var step := Step(cfg, codec, s, trace[0]);
      var rest := Loop(cfg, codec, step.state, trace[1..]);
      LoopTargets(cfg, codec, step.state, trace[1..]);
      TraceHashesPrefix(trace, rest.iterations + 1);
      DifferenceOfUnion(s.targets, BatchHashes(trace[0].results), TraceHashes(trace[1..][..rest.iterations]));
    } else {
      assert trace[..0] == [];
      assert s.targets - TraceHashes([]) == s.targets;
    }
  }

  /** Taking away `b` and then `c` takes away their union. */
  lemma DifferenceOfUnion<T>(a: set<T>, b: set<T>, c: set<T>)
    ensures a - b - c == a - (b + c)
  {
  }

  /** The targets left after the first `j` iterations, starting from `targets`. */
  function TargetsAfter(targets: set<Hash>, trace: seq<Observation>, j: nat): set<Hash>
    requires j <= |trace|
  {
    targets - TraceHashes(trace[..j])
  }

  /** No iteration, no target removed. */
  lemma TargetsAfterNone(targets: set<Hash>, trace: seq<Observation>)
    ensures TargetsAfter(targets, trace, 0) == targets
  {
    assert trace[..0] == [];
    assert targets - TraceHashes([]) == targets;
  }

  /** The targets left after `j` iterations are those the first iteration leaves, after `j - 1` more. */
  lemma TargetsAfterFirst(targets: set<Hash>, trace: seq<Observation>, j: nat)
    requires 1 <= j <= |trace|
    ensures TargetsAfter(targets, trace, j) == TargetsAfter(targets - BatchHashes(trace[0].results), trace[1..], j - 1)
  {
    TraceHashesPrefix(trace, j);
  }

  /** No iteration before the last one of a run satisfies a stop rule. */
  lemma {:induction false} LoopNoEarlierStop(cfg: Config, codec: AddressCodec, s: Finder, trace: seq<Observation>)
    requires s.running
    ensures var r := Loop(cfg, codec, s, trace);
            forall j | 1 <= j < r.iterations :: !StopsAfter(cfg, TargetsAfter(s.targets, trace, j), trace[j - 1])
    decreases |trace|
  {
    if |trace| > 0 {
      var step := Step(cfg, codec, s, trace[0]);
      var rest := Loop(cfg, codec, step.state, trace[1..]);
      LoopFirst(cfg, codec, s, trace);
      if step.state.running {
        LoopNoEarlierStop(cfg, codec, step.state, trace[1..]);
        forall j | 1 <= j < rest.iterations + 1
          ensures !StopsAfter(cfg, TargetsAfter(s.targets, trace, j), trace[j - 1])
        {
          TargetsAfterFirst(s.targets, trace, j);
          if j == 1 {
            TargetsAfterNone(step.state.targets, trace[1..]);
          } else {
            assert trace[j - 1] == trace[1..][j - 2];
          }
        }
      }
    }
  }

  /** A run that stopped did so because its last iteration satisfied a stop rule. */
  lemma {:induction false} LoopStopReason(cfg: Config, codec: AddressCodec, s: Finder, trace: seq<Observation>)
    requires s.running
    ensures var r := Loop(cfg, codec, s, trace);
            !r.state.running ==>
              0 < r.iterations &&
              StopsAfter(cfg, TargetsAfter(s.targets, trace, r.iterations), trace[r.iterations - 1])
    decreases |trace|
  {
    if |trace| > 0 {
      var step := Step(cfg, codec, s, trace[0]);
      var rest := Loop(cfg, codec, step.state, trace[1..]);
      LoopFirst(cfg, codec, s, trace);
      TargetsAfterFirst(s.targets, trace, rest.iterations + 1);
      if step.state.running {
        LoopStopReason(cfg, codec, step.state, trace[1..]);
        if !rest.state.running {
          assert trace[rest.iterations] == trace[1..][rest.iterations - 1];
        }
      } else {
        TargetsAfterNone(step.state.targets, trace[1..]);
      }
    }
  }

  /**
   * A run (entered with the flag up) goes on exactly until the first iteration after which
   * a stop rule holds: no earlier iteration satisfies one, and if the run stopped, the
   * last iteration did.
   */
  lemma LoopStopsAtFirstStopRule(cfg: Config, codec: AddressCodec, s: Finder, trace: seq<Observation>)
    requires s.running
    ensures var r := Loop(cfg, codec, s, trace);
            && (forall j | 1 <= j < r.iterations :: !StopsAfter(cfg, TargetsAfter(s.targets, trace, j), trace[j - 1]))
            && (!r.state.running ==>
                  0 < r.iterations &&
                  StopsAfter(cfg, TargetsAfter(s.targets, trace, r.iterations), trace[r.iterations - 1]))
  {
    LoopNoEarlierStop(cfg, codec, s, trace);
    LoopStopReason(cfg, codec, s, trace);
  }

  /** The run stops no later than the iteration after which no target is left. */
  lemma StopsWhenTargetsRunOut(cfg: Config, codec: AddressCodec, s: Finder, trace: seq<Observation>, k: nat)
    requires s.running
    requires 1 <= k <= |trace|
    requires s.targets <= TraceHashes(trace[..k])
    ensures Loop(cfg, codec, s, trace).iterations <= k
  {
    LoopNoEarlierStop(cfg, codec, s, trace);
    assert TargetsAfter(s.targets, trace, k) == {};
  }

  /** Without restriding, the run stops no later than the iteration whose cursor leaves the range. */
  lemma StopsAtEndOfRange(cfg: Config, codec: AddressCodec, s: Finder, trace: seq<Observation>, k: nat)
    requires s.running && !ContinuesPastEnd(cfg)
    requires 1 <= k <= |trace|
    requires Exhausted(cfg, trace[k - 1].cursor)
    ensures Loop(cfg, codec, s, trace).iterations <= k
  {
    LoopNoEarlierStop(cfg, codec, s, trace);
    assert StopsAfter(cfg, TargetsAfter(s.targets, trace, k), trace[k - 1]);
  }

  /** A `stop()` during an iteration ends the run at the guard that follows it. */
  lemma StopsOnRequest(cfg: Config, codec: AddressCodec, s: Finder, trace: seq<Observation>, k: nat)
    requires s.running
    requires 1 <= k <= |trace|
    requires trace[k - 1].stopRequested
    ensures Loop(cfg, codec, s, trace).iterations <= k
  {
    LoopNoEarlierStop(cfg, codec, s, trace);
    assert StopsAfter(cfg, TargetsAfter(s.targets, trace, k), trace[k - 1]);
  }

  /**
   * With restriding configured, leaving the range never ends the run: while targets remain
   * and no stop is requested, every supplied iteration runs and the loop is still running.
   */
  lemma ContinuesPastEndOfRange(cfg: Config, codec: AddressCodec, s: Finder, trace: seq<Observation>)
    requires s.running && ContinuesPastEnd(cfg)
    requires forall j | 1 <= j <= |trace| :: TargetsAfter(s.targets, trace, j) != {} && !trace[j - 1].stopRequested
    ensures var r := Loop(cfg, codec, s, trace);
            r.iterations == |trace| && r.state.running
  {
    LoopStopReason(cfg, codec, s, trace);
  }

  /** `stop()` before the guard: the loop does not run another iteration and changes nothing. */
  lemma StopEndsLoop(cfg: Config, codec: AddressCodec, s: Finder, trace: seq<Observation>)
    ensures Loop(cfg, codec, Stop(s), trace) == RunOutcome(Stop(s), [], 0)
  {
  }

  /** `RestrideCount` of a prefix, peeled at the front. */
  lemma RestrideCountPrefix(cfg: Config, trace: seq<Observation>, k: nat)
    requires 1 <= k <= |trace|
    ensures RestrideCount(cfg, trace[..k]) ==
              (if Exhausted(cfg, trace[0].cursor) && ContinuesPastEnd(cfg) then 1 else 0) + RestrideCount(cfg, trace[1..][..k - 1])
  {
    assert trace[..k][1..] == trace[1..][..k - 1];
  }

  /**
   * The restride count grows by one for each iteration that left the range while
   * restriding is configured, and never without restriding, in which case the stride
   * stays as it was.
   */
  lemma {:induction false} LoopRestrides(cfg: Config, codec: AddressCodec, s: Finder, trace: seq<Observation>)
    ensures var r := Loop(cfg, codec, s, trace);
            && r.state.rStrideCount == s.rStrideCount + RestrideCount(cfg, trace[..r.iterations])
            && (!ContinuesPastEnd(cfg) ==> r.state.stride == s.stride && r.state.deviceStride == s.deviceStride)
    decreases |trace|
  {
    if s.running && |trace| > 0 {
      LoopRestrides(cfg, codec, Step(cfg, codec, s, trace[0]).state, trace[1..]);
      LoopFirstRestrides(cfg, codec, s, trace);
    } else {
      assert trace[..0] == [];
    }
  }

  /** The inductive step of `LoopRestrides`: the first iteration's restride, then those of the rest. */
  lemma LoopFirstRestrides(cfg: Config, codec: AddressCodec, s: Finder, trace: seq<Observation>)
    requires s.running && |trace| > 0
    requires var step := Step(cfg, codec, s, trace[0]);
             var rest := Loop(cfg, codec, step.state, trace[1..]);
             && rest.state.rStrideCount == step.state.rStrideCount + RestrideCount(cfg, trace[1..][..rest.iterations])
             && (!ContinuesPastEnd(cfg) ==> rest.state.stride == step.state.stride && rest.state.deviceStride == step.state.deviceStride)
    ensures var r := Loop(cfg, codec, s, trace);
            && r.state.rStrideCount == s.rStrideCount + RestrideCount(cfg, trace[..r.iterations])
            && (!ContinuesPastEnd(cfg) ==> r.state.stride == s.stride && r.state.deviceStride == s.deviceStride)
  {
    var r := Loop(cfg, codec, s, trace);
    LoopFirst(cfg, codec, s, trace);
    RestrideCountPrefix(cfg, trace, r.iterations);
  }

  /** `TraceMatches` of a prefix, peeled at the front. */
  lemma TraceMatchesPrefix(trace: seq<Observation>, j: nat)
    requires 1 <= j <= |trace|
    ensures TraceMatches(trace[..j]) == trace[0].results + TraceMatches(trace[1..][..j - 1])
  {
    assert trace[..j][1..] == trace[1..][..j - 1];
  }

  /** Every match of the iterations that ran reaches the result callback, once, in order. */
  lemma {:induction false} LoopResults(cfg: Config, codec: AddressCodec, s: Finder, trace: seq<Observation>)
    ensures var r := Loop(cfg, codec, s, trace);
            ResultsOf(r.events) == ResultsFor(codec, TraceMatches(trace[..r.iterations]))
    decreases |trace|
  {
    if s.running && |trace| > 0 {
      var step := Step(cfg, codec, s, trace[0]);
      var rest := Loop(cfg, codec, step.state, trace[1..]);
      var r := Loop(cfg, codec, s, trace);
      assert r.events == step.events + rest.events && r.iterations == rest.iterations + 1;
      LoopResults(cfg, codec, step.state, trace[1..]);
      StepEvents(cfg, codec, s, trace[0]);
      ResultsOfAppend(step.events, rest.events);
      TraceMatchesPrefix(trace, r.iterations);
      ResultsForAppend(codec, trace[0].results, TraceMatches(trace[1..][..rest.iterations]));
    } else {
      assert trace[..0] == [];
    }
  }

  /**
   * Room for `n` more iterations without 64-bit overflow of the iteration counter or of
   * the key total, counting the keys not yet reported.
   */
  predicate Headroom(cfg: Config, s: Finder, n: nat)
  {
    && s.prevIterCount <= s.iterCount
    && s.iterCount + n < MOD
    && KeysFit(s.total, s.iterCount - s.prevIterCount + n, cfg.keysPerStep)
  }

  /** `steps` more steps of `k` keys each, added to `total` one step at a time, stay below 2^64. */
  predicate KeysFit(total: int, steps: nat, k: nat)
    decreases steps
  {
    if steps == 0 then total < MOD else KeysFit(total + k, steps - 1, k)
  }

  /** Adding the steps one at a time fits exactly when adding their product does. */
  lemma {:induction false} KeysFitIsBound(total: int, steps: nat, k: nat)
    ensures KeysFit(total, steps, k) <==> total + Product(steps, k) < MOD
    decreases steps
  {
    if steps > 0 {
      KeysFitIsBound(total + k, steps - 1, k);
    }
  }

  /**
   * Within the headroom, an iteration uses up one iteration of it: the unreported keys
   * grow by one step's worth, or a report moves them into the total.
   */
  lemma StepUsesHeadroom(cfg: Config, codec: AddressCodec, s: Finder, obs: Observation, n: nat)
    requires 1 <= n && Headroom(cfg, s, n)
    ensures Headroom(cfg, Step(cfg, codec, s, obs).state, n - 1)
  {
    var t := s.(iterCount := Inc(s.iterCount));
    assert Headroom(cfg, t, n - 1) by {
      assert t.iterCount - t.prevIterCount + (n - 1) == s.iterCount - s.prevIterCount + n;
    }
    ReportCounters(cfg, t, obs, n - 1);
    StepKeepsHeadroom(cfg, codec, s, obs, n - 1);
  }

  /**
   * Within the headroom, an iteration never lowers the total, and a report adds exactly
   * the keys of the iterations since the last one, the current one included.
   */
  lemma StepTotal(cfg: Config, codec: AddressCodec, s: Finder, obs: Observation, n: nat)
    requires 1 <= n && Headroom(cfg, s, n)
    ensures var r := Step(cfg, codec, s, obs);
            && s.total <= r.state.total
            && (obs.statusDue ==> r.state.total == s.total + Product(s.iterCount + 1 - s.prevIterCount, cfg.keysPerStep))
  {
    var t := s.(iterCount := Inc(s.iterCount));
    var keys := Product(s.iterCount + 1 - s.prevIterCount, cfg.keysPerStep);
    assert t.total == s.total && t.iterCount - t.prevIterCount == s.iterCount + 1 - s.prevIterCount;
    assert Headroom(cfg, t, n - 1) by {
      assert t.iterCount - t.prevIterCount + (n - 1) == s.iterCount - s.prevIterCount + n;
    }
    ReportCounters(cfg, t, obs, n - 1);
    StepKeepsTotal(cfg, codec, s, obs, s.total, keys);
  }

  /** What the status block does to the total, the whole iteration does. */
  lemma StepKeepsTotal(cfg: Config, codec: AddressCodec, s: Finder, obs: Observation, low: int, keys: int)
    requires var t := ReportIfDue(cfg, s.(iterCount := Inc(s.iterCount)), obs).state;
             low <= t.total && (obs.statusDue ==> t.total == low + keys)
    ensures var r := Step(cfg, codec, s, obs).state;
            low <= r.total && (obs.statusDue ==> r.total == low + keys)
  {
    StepCountersFromReport(cfg, codec, s, obs);
  }

  /** The stages after the status block leave the counters, and so the headroom, as they were. */
  lemma StepKeepsHeadroom(cfg: Config, codec: AddressCodec, s: Finder, obs: Observation, m: nat)
    requires Headroom(cfg, ReportIfDue(cfg, s.(iterCount := Inc(s.iterCount)), obs).state, m)
    ensures Headroom(cfg, Step(cfg, codec, s, obs).state, m)
  {
    StepCountersFromReport(cfg, codec, s, obs);
    HeadroomOfCounters(cfg, Step(cfg, codec, s, obs).state, ReportIfDue(cfg, s.(iterCount := Inc(s.iterCount)), obs).state, m);
  }

  /** The headroom depends on the counters only. */
  lemma HeadroomOfCounters(cfg: Config, x: Finder, y: Finder, m: nat)
    requires x.total == y.total && x.iterCount == y.iterCount && x.prevIterCount == y.prevIterCount
    requires Headroom(cfg, y, m)
    ensures Headroom(cfg, x, m)
  {
  }

  /**
   * The status block within the headroom: a report adds exactly the unreported keys, the
   * total never goes down, and the headroom left is unchanged.
   */
  lemma ReportCounters(cfg: Config, t: Finder, obs: Observation, m: nat)
    requires Headroom(cfg, t, m)
    ensures var r := ReportIfDue(cfg, t, obs);
            && r.state.iterCount == t.iterCount
            && (obs.statusDue ==> r.state.total == t.total + Product(t.iterCount - t.prevIterCount, cfg.keysPerStep))
            && t.total <= r.state.total
            && Headroom(cfg, r.state, m)
  {
    var k := cfg.keysPerStep;
    var a := t.iterCount - t.prevIterCount;
    KeysFitIsBound(t.total, a + m, k);
    HeadroomSplit(t.total, a, m, k);
    var r := ReportIfDue(cfg, t, obs).state;
    KeysFitIsBound(r.total, r.iterCount - r.prevIterCount + m, k);
    if obs.statusDue {
      assert r.total == t.total + Product(a, k);
      assert r.iterCount - r.prevIterCount + m == m;
    }
  }

  /** The arithmetic behind `ReportCounters`: reporting `a` unreported steps leaves room for `m` more. */
  lemma HeadroomSplit(total: nat, a: nat, m: nat, k: nat)
    requires total + Product(a + m, k) < MOD
    ensures total + Product(a, k) < MOD
    ensures total + Product(a, k) + Product(m, k) < MOD
  {
    ProductAdd(a, m, k);
  }

  /** The keys of `a + m` steps are those of `a` steps and then `m` more. */
  lemma {:induction false} ProductAdd(a: nat, m: nat, k: nat)
    ensures Product(a + m, k) == Product(a, k) + Product(m, k)
  {
    if a > 0 {
      ProductAdd(a - 1, m, k);
      assert a + m - 1 == (a - 1) + m;
    }
  }

  /**
   * Within the headroom, the totals of successive status snapshots never go down, and
   * they lie between the total before and the total after the run.
   */
  lemma {:induction false} LoopTotals(cfg: Config, codec: AddressCodec, s: Finder, trace: seq<Observation>)
    requires Headroom(cfg, s, |trace|)
    ensures var r := Loop(cfg, codec, s, trace);
            Chained(TotalsOf(r.events), s.total, r.state.total)
    decreases |trace|
  {
    if s.running && |trace| > 0 {
      LoopFirstLeavesHeadroom(cfg, codec, s, trace);
      LoopTotals(cfg, codec, Step(cfg, codec, s, trace[0]).state, trace[1..]);
      LoopFirstChains(cfg, codec, s, trace);
    }
  }

  /** The first iteration of a run within the headroom leaves headroom for the rest of the run. */
  lemma LoopFirstLeavesHeadroom(cfg: Config, codec: AddressCodec, s: Finder, trace: seq<Observation>)
    requires |trace| > 0 && Headroom(cfg, s, |trace|)
    ensures Headroom(cfg, Step(cfg, codec, s, trace[0]).state, |trace[1..]|)
  {
    StepUsesHeadroom(cfg, codec, s, trace[0], |trace|);
    assert |trace[1..]| == |trace| - 1;
  }

  /** Totals chained over the rest of a run chain over the whole run, the first iteration included. */
  lemma LoopFirstChains(cfg: Config, codec: AddressCodec, s: Finder, trace: seq<Observation>)
    requires s.running && |trace| > 0 && Headroom(cfg, s, |trace|)
    requires var step := Step(cfg, codec, s, trace[0]);
             var rest := Loop(cfg, codec, step.state, trace[1..]);
             Chained(TotalsOf(rest.events), step.state.total, rest.state.total)
    ensures var r := Loop(cfg, codec, s, trace);
            Chained(TotalsOf(r.events), s.total, r.state.total)
  {
    var step := Step(cfg, codec, s, trace[0]);
    var rest := Loop(cfg, codec, step.state, trace[1..]);
    LoopFirst(cfg, codec, s, trace);
    StepChains(cfg, codec, s, trace[0], |trace|);
    ChainEvents(step.events, rest.events, s.total, step.state.total, rest.state.total);
  }

  /** One iteration within the headroom: its snapshot total lies between the totals before and after. */
  lemma StepChains(cfg: Config, codec: AddressCodec, s: Finder, obs: Observation, n: nat)
    requires 1 <= n && Headroom(cfg, s, n)
    ensures var r := Step(cfg, codec, s, obs);
            Chained(TotalsOf(r.events), s.total, r.state.total)
  {
    var r := Step(cfg, codec, s, obs);
    StepSnapshots(cfg, codec, s, obs);
    StepTotal(cfg, codec, s, obs, n);
    SnapshotChained(TotalsOf(r.events), obs.statusDue, s.total, r.state.total);
  }

  /** At most one snapshot, carrying the higher bound, is chained between the bounds. */
  lemma SnapshotChained(xs: seq<u64>, due: bool, lo: int, hi: u64)
    requires xs == (if due then [hi] else []) && lo <= hi
    ensures Chained(xs, lo, hi)
  {
  }

  /** The snapshots of two event sequences whose totals chain, chain across their concatenation. */
  lemma ChainEvents(a: seq<Event>, b: seq<Event>, lo: int, mid: int, hi: int)
    requires Chained(TotalsOf(a), lo, mid) && Chained(TotalsOf(b), mid, hi)
    ensures Chained(TotalsOf(a + b), lo, hi)
  {
    TotalsOfAppend(a, b);
    ChainBounds(TotalsOf(a), TotalsOf(b), lo, mid, hi);
  }

  /** Two chained runs of totals, the first ending at most where the second starts, chain. */
  lemma ChainBounds(head: seq<u64>, tail: seq<u64>, lo: int, mid: int, hi: int)
    requires Chained(head, lo, mid) && Chained(tail, mid, hi)
    ensures Chained(head + tail, lo, hi)
  {
  }

  /** Within the headroom, a run never lowers the total. */
  lemma LoopTotalGrows(cfg: Config, codec: AddressCodec, s: Finder, trace: seq<Observation>)
    requires Headroom(cfg, s, |trace|)
    ensures s.total <= Loop(cfg, codec, s, trace).state.total
  {
    LoopTotals(cfg, codec, s, trace);
  }

  /** Room for `run()` to go through `n` iterations from `s` without 64-bit overflow. */
  predicate RunHeadroom(cfg: Config, s: Finder, n: nat)
  {
    Headroom(cfg, s.(running := true, prevIterCount := 0), n)
  }

  /**
   * `run()` restarts `prevIterCount` at zero, so the room it needs is for the iteration
   * counter to reach `iterCount + n` and for the keys of all those iterations to fit
   * on top of the total.
   */
  lemma RunHeadroomIsBound(cfg: Config, s: Finder, n: nat)
    ensures RunHeadroom(cfg, s, n) <==>
              s.iterCount + n < MOD && s.total + Product(s.iterCount + n, cfg.keysPerStep) < MOD
  {
    KeysFitIsBound(s.total, s.iterCount + n, cfg.keysPerStep);
  }

  /**
   * `run()` from a state whose counters leave room for the supplied iterations: the
   * totals reported along the run never decrease, and they lie between the total before
   * and the total after the run.
   */
  lemma RunTotals(cfg: Config, codec: AddressCodec, s: Finder, trace: seq<Observation>)
    requires RunHeadroom(cfg, s, |trace|)
    ensures var r := Run(cfg, codec, s, trace);
            Chained(TotalsOf(r.events), s.total, r.state.total)
  {
    LoopTotals(cfg, codec, s.(running := true, prevIterCount := 0), trace);
  }

  /** Within the room for the run, `run()` never lowers the total. */
  lemma RunTotalGrows(cfg: Config, codec: AddressCodec, s: Finder, trace: seq<Observation>)
    requires RunHeadroom(cfg, s, |trace|)
    ensures s.total <= Run(cfg, codec, s, trace).state.total
  {
    LoopTotalGrows(cfg, codec, s.(running := true, prevIterCount := 0), trace);
  }

  /**
   * `run()` restarts `prevIterCount` at zero but keeps `iterCount`, so the first report of
   * a run adds the keys of every iteration since the finder was created, those an earlier
   * run already reported included.
   */
  lemma RunFirstReportCountsEarlierRuns(cfg: Config, codec: AddressCodec, s: Finder, obs: Observation)
    requires obs.statusDue && RunHeadroom(cfg, s, 1)
    ensures Run(cfg, codec, s, [obs]).state.total == s.total + Product(s.iterCount + 1, cfg.keysPerStep)
  {
    var t := s.(running := true, prevIterCount := 0);
    StepTotal(cfg, codec, t, obs, 1);
    LoopFirst(cfg, codec, t, [obs]);
  }

  /** The device always holds every remaining target: loads install the set, iterations only shrink it. */
  predicate DeviceCoversTargets(s: Finder)
  {
    s.deviceTargets.Some? && s.targets <= s.deviceTargets.value
  }

  /**
   * A finder fresh from the constructor, `init()` and a target load holds what the
   * run lemmas assume: the device has the host's stride and every host target.
   */
  lemma CreatedFinderIsReady(cfg: Config, stride: nat, draw: nat, targets: set<Hash>)
    ensures var f := SetTargetsOnDevice(Init(Create(cfg, stride, draw)).(targets := targets));
            StrideInSync(f) && DeviceCoversTargets(f)
  {
  }

  /**
   * Its counters at zero, a fresh finder has room for `n` iterations of `run()` exactly
   * when `n` and the `n * keysPerStep` keys they search fit in 64 bits.
   */
  lemma CreatedFinderHeadroom(cfg: Config, stride: nat, draw: nat, n: nat)
    ensures RunHeadroom(cfg, Create(cfg, stride, draw), n) <==> n < MOD && Product(n, cfg.keysPerStep) < MOD
  {
    RunHeadroomIsBound(cfg, Create(cfg, stride, draw), n);
  }

  /**
   * The range test does not sit in an `else` of the no-targets test: an iteration that
   * finds the last target and leaves the range with restriding configured still restrides
   * before the run stops.
   */
  lemma LastTargetStillRestrides(cfg: Config, codec: AddressCodec, s: Finder, obs: Observation)
    requires s.targets <= BatchHashes(obs.results)
    requires Exhausted(cfg, obs.cursor) && ContinuesPastEnd(cfg)
    ensures var r := Step(cfg, codec, s, obs).state;
            && !r.running
            && r.rStrideCount == s.rStrideCount + 1
            && r.stride == obs.drawnStride
  {
  }

  /** A run never hands the device a new target set: the last set handed over stands. */
  lemma {:induction false} LoopKeepsDeviceTargets(cfg: Config, codec: AddressCodec, s: Finder, trace: seq<Observation>)
    ensures Loop(cfg, codec, s, trace).state.deviceTargets == s.deviceTargets
    decreases |trace|
  {
    if s.running && |trace| > 0 {
      LoopKeepsDeviceTargets(cfg, codec, Step(cfg, codec, s, trace[0]).state, trace[1..]);
    }
  }

  /** A run only ever takes targets away. */
  lemma LoopShrinksTargets(cfg: Config, codec: AddressCodec, s: Finder, trace: seq<Observation>)
    ensures Loop(cfg, codec, s, trace).state.targets <= s.targets
  {
    LoopTargets(cfg, codec, s, trace);
  }

  /** A run that starts with the device on the host's stride keeps it there, restrides included. */
  lemma {:induction false} LoopKeepsStride(cfg: Config, codec: AddressCodec, s: Finder, trace: seq<Observation>)
    requires StrideInSync(s)
    ensures StrideInSync(Loop(cfg, codec, s, trace).state)
    decreases |trace|
  {
    if s.running && |trace| > 0 {
      LoopKeepsStride(cfg, codec, Step(cfg, codec, s, trace[0]).state, trace[1..]);
    }
  }

  /**
   * The host never hands the device a reduced set during a run, so after a run the set
   * last handed over still covers the host's (smaller) set.
   */
  lemma LoopKeepsDeviceCovering(cfg: Config, codec: AddressCodec, s: Finder, trace: seq<Observation>)
    requires DeviceCoversTargets(s)
    ensures DeviceCoversTargets(Loop(cfg, codec, s, trace).state)
  {
    LoopKeepsDeviceTargets(cfg, codec, s, trace);
    LoopShrinksTargets(cfg, codec, s, trace);
  }
}

=== FILE: uint64.dfy ===
/**
 * Unsigned 64-bit arithmetic as C++ `uint64_t` performs it: every operation wraps
 * modulo 2^64. The operations are written with comparisons and repeated addition
 * rather than `%`, and the lemmas at the end connect them to modular arithmetic.
 */
module UInt64 {

  const MOD: int := 0x1_0000_0000_0000_0000

  type u64 = x: int | 0 <= x < MOD

  /** `a + b` on `uint64_t`. */
  function Add(a: u64, b: u64): (r: u64)
    ensures r == (a + b) % MOD
    ensures a + b < MOD ==> r == a + b
    ensures a + b >= MOD ==> r == a + b - MOD
  {
    if a + b < MOD then a + b else a + b - MOD
  }

  /** `a - b` on `uint64_t`; a negative difference wraps to the top of the range. */
  function Sub(a: u64, b: u64): (r: u64)
    ensures r == (a - b) % MOD
    ensures b <= a ==> r == a - b
    ensures a < b ==> r == a - b + MOD
  {
    if b <= a then a - b else a - b + MOD
  }

  /** `x++` on `uint64_t`. */
  function Inc(x: u64): (r: u64)
    ensures x + 1 < MOD ==> r == x + 1
    ensures x + 1 == MOD ==> r == 0
  {
    Add(x, 1)
  }

  /** The exact product of two naturals, as `a`-fold addition of `b`. */
  function Product(a: nat, b: nat): nat
  {
    if a == 0 then 0 else Product(a - 1, b) + b
  }

  /** `a * b` on `uint64_t`: `a`-fold wrapping addition of `b`; exact while the product fits. */
  function Mul(a: u64, b: u64): (r: u64)
    ensures Product(a, b) < MOD ==> r == Product(a, b)
  {
    if a == 0 then 0 else Add(Mul(a - 1, b), b)
  }

  /** `Product` is multiplication. */
  lemma {:induction false} ProductIsMultiplication(a: nat, b: nat)
    ensures Product(a, b) == a * b
  {
    if a > 0 {
      ProductIsMultiplication(a - 1, b);
    }
  }

  /** `Add` is addition modulo 2^64. */
  lemma AddIsModular(a: u64, b: u64)
    ensures Add(a, b) == (a + b) % MOD
  {
  }

  /** `Sub` is subtraction modulo 2^64. */
  lemma SubIsModular(a: u64, b: u64)
    ensures Sub(a, b) == (a - b) % MOD
  {
  }

  /** `Mul` is multiplication modulo 2^64. */
  lemma MulIsModular(a: u64, b: u64)
    ensures Mul(a, b) == (a * b) % MOD
  {
    MulIsProductModular(a, b);
    ProductIsMultiplication(a, b);
  }

  /** `Mul` reduces the exact repeated sum modulo 2^64. */
  lemma {:induction false} MulIsProductModular(a: u64, b: u64)
    ensures Mul(a, b) == Product(a, b) % MOD
  {
    if a > 0 {
      MulIsProductModular(a - 1, b);
      var p := Product(a - 1, b);
      var m := Mul(a - 1, b);
      AddIsModular(m, b);
      ModAddRight(p, b);
    }
  }

  /** Reducing the left operand first does not change a sum modulo 2^64. */
  lemma ModAddRight(p: nat, b: u64)
    ensures ((p % MOD) + b) % MOD == (p + b) % MOD
  {
    var q := p / MOD;
    assert p == q * MOD + p % MOD;
    assert p + b == q * MOD + ((p % MOD) + b);
    ModShift(q, (p % MOD) + b);
  }

  /** Adding a multiple of 2^64 does not change a value modulo 2^64. */
  lemma {:induction false} ModShift(q: nat, x: nat)
    ensures (q * MOD + x) % MOD == x % MOD
  {
    if q > 0 {
      ModShift(q - 1, x);
      assert q * MOD + x == ((q - 1) * MOD + x) + MOD;
    }
  }
}
